=== FILE: README.md ===
# CyberGrid Runner — a Dafny model of the game core

CyberGrid Runner is a browser game on a 50×50 grid. The runner starts on the
centre cell (25,25) and collects the level's data nodes. Security drones chase
the nodes, and touching a drone ends the game. The runner can shoot: three
bullet hits destroy a drone. There are five levels with fixed
configurations. The scene switches between the level menu, play, pause, a
victory screen (next level or restart) and a game-over screen (restart).

This project models the discrete simulation inside the scene code as pure
functions over an immutable session record (`State.Game`), and proves its
safety properties:

- Drones never stand on or next to a remaining node, never share a cell, and never leave the field.
- During a level (outside the menu), the drone counter equals the number of drones on the field.
- During a level (outside the menu), nodes collected plus nodes remaining equals the level's total. Restart empties the field but keeps both counters, so neither holds in the menu.
- The state-machine transitions follow the game's screens.

Modules, one per part of the program:

| file | module | models |
|---|---|---|
| grid.dfy | `Grid` | cells, directions, steps, Chebyshev adjacency, the pixel encoding of a cell |
| levels.dfy | `Levels` | the level table, lookup with fallback, advancing to the next level |
| shuffle.dfy | `Shuffle` | the Fisher–Yates shuffle of a drone's fallback directions |
| state.dfy | `State` | the session record: game state, counters, runner, nodes, drones, bullets |
| pursuit.dfy | `Pursuit` | `moveDrones`: nearest node, candidate directions, movement filter, the tick |
| runner.dfy | `Runner` | `moveRunner`: key priority, facing, bounded step |
| spawn.dfy | `Spawn` | the placement loops for nodes and drones in `create`, with their exclusion rules |
| combat.dfy | `Combat` | `collectNode`, `hitDrone`, `fireBullet`, bullet stepping, the bullet/drone handler |
| session.dfy | `Session` | pause, level select, `create`, next level, restart, the screens' Space keys, events, the invariant |
| labels.dfy | `SourceLabels` | the game state as the source's string labels, and the game-over label mismatch |
| sequences.dfy, wrappers.dfy | `Sequences`, `Wrappers` | helpers |

How the model represents the source:

- **Positions.**
  - The source stores positions as pixel centres `32g+16`. It reads a cell back with `Math.round((p-16)/32)`, or with `Math.floor(p/32)` in the HUD.
  - The model stores cells. The `Grid` lemmas prove that both read-back formulas agree on every pixel, and that both invert the encoding. The pixel tests of the drone filter (`16 <= x <= 1584`, `|n.x-x| <= 32`) are therefore exactly the cell tests used here.
- **Distances.**
  - The drones' Euclidean pixel distance is replaced by the squared cell distance. Pixel distance is 32 times cell distance, so comparisons come out the same.
  - The strict `<` of the scan is kept, so the first of equally near nodes wins.
- **Randomness.**
  - Randomness is passed in as parameters. `Phaser.Math.Between(0, 49)` pairs become a stream of candidate cells. `Phaser.Utils.Array.Shuffle` becomes a Fisher–Yates pass whose partner indices are supplied.
- **Contacts and timers.**
  - Contacts found by the physics engine are events that name two objects on the same cell. `collectNode` checks the same cell itself.
  - Timers are events too: the drone tick, the movement repeat, and the per-frame bullet step with the bullets that move this frame (`due`). A bullet moves when its step interval has elapsed. The frame loop walks the live bullet list while it destroys bullets, so the bullet right after a destroyed one is skipped that frame; `due` marks that bullet as not moving as well.
- **Events.** `Session.Apply` is the dispatcher for the events. `Session.Inv` is the invariant that every event preserves.

Behaviours of the code worth knowing:

- The drone spawn rule refuses the whole cross of rows and columns within four cells of (25,25), i.e. `|x-25| < 5 || |y-25| < 5` (main.js:174). This is stricter than a Chebyshev ball of radius five; see `Spawn.CrossIsStricterThanBall`.
- The placement loops have no attempt budget. `MAX_PLACEMENT_ATTEMPTS` (main.js:87) is never read. In the model, a placement fails only when the supplied stream of cells runs out, and it always succeeds when the stream holds enough distinct acceptable cells.
- The bullet/drone handler (main.js:353-372) does not check the game state. `Combat.BulletHit` has no guard either.
- `restartGame` does not reset the drone counter or the facing. `create` does not reset the facing either.
- The contact handler and the game-over screen spell the game-over state differently ('gameover' and 'gameOver'). `State.Phase` has one game-over state, so the event model is the corrected game; `SourceLabels` models the two spellings as written.

## Model

| member | source | states |
|---|---|---|
| Levels.ConfigFor | main.js:134 | the configuration of levels 1..5 is that level's table row; every other level gets the last row |
| Levels.TableStrictlyHarder | main.js:47-53 | a later level has strictly more nodes and drones and a strictly shorter drone delay |
| Levels.Advance | main.js:649 | the next level is level+1 below the last level and stays at the last level otherwise, within 1..5 |
| Levels.AdvanceIsHarder | main.js:649 | advancing below the last level makes the configuration strictly harder; at the last level it is unchanged |
| Grid.StepIsUnit | main.js:724-728 | a step moves exactly one cell along one axis, and stepping back the opposite way returns to the cell |
| Grid.NearIsChebyshev | main.js:467-472 | "on a node or adjacent to one" is the same as being within Chebyshev distance 1 of some node |
| Grid.JsRound | main.js:723-724 | Math.round of num/den is the integer within half a unit of it, halves rounding up |
| Grid.PixelToCellNearest | main.js:723-724 | the cell read back from a pixel is the one whose centre is within half a cell of that pixel |
| Grid.RoundAgreesWithHud | main.js:767 | the HUD's floor(p/32) and the movement code's round((p-16)/32) give the same cell for every pixel |
| Grid.CellPixelRoundTrip | main.js:378-381 | storing a cell as its pixel centre and reading it back by either formula gives the cell |
| Shuffle.Swap | main.js:434 | a swap exchanges two entries, leaves the rest, and keeps the multiset and distinctness |
| Shuffle.ShuffleDown | main.js:434 | the shuffle pass keeps the elements as a multiset, keeps them distinct and leaves positions above i untouched |
| Shuffle.FisherYates | main.js:431-436 | the shuffled list is a rearrangement of its input, with the same multiset and length |
| Pursuit.NearestFrom | main.js:409-415 | the scan returns the first node at minimal distance among all nodes, and none exactly when there are no nodes |
| Pursuit.Nearest | main.js:406-415 | the pursued node is at minimal distance; every earlier node is strictly farther; there is none only when no node is left |
| Pursuit.FirstNearestUnique | main.js:409-415 | the first nearest node is unique, so the pursued node is determined |
| Pursuit.AppendMissing | main.js:428-430 | appending missing directions keeps the list duplicate-free, keeps it as a prefix and adds exactly the missing ones |
| Pursuit.AllFour | main.js:418-430 | a duplicate-free list of directions that mentions all four has length four |
| Pursuit.Ranked | main.js:418-430 | the unshuffled candidates are the four directions once each, starting with the directions that close the gap |
| Pursuit.Candidates | main.js:418-436 | the tried directions are a permutation of the four, and the first is the dominant-axis direction (vertical on a tie) |
| Pursuit.LeadApproaches | main.js:418-427 | the first candidate strictly shortens the distance to the pursued node |
| Pursuit.Plan | main.js:405-436 | with nodes left, the plan holds all four directions and opens with the lead direction toward the nearest node; with none, the drone has nothing to try |
| Pursuit.OccupiedFromIff | main.js:452 | the occupancy scan reports a cell as taken exactly when some other drone stands on it |
| Pursuit.FirstAdmissibleSpec | main.js:438-458 | the direction taken is admissible and every earlier candidate was refused; no direction is found only when every candidate was refused |
| Pursuit.Choice | main.js:438-458 | an empty candidate list gives no choice, and a choice is always one of the candidates |
| Pursuit.ChoiceSpec | main.js:438-458 | a drone chooses the first admissible candidate, and chooses none only if no direction at all is admissible |
| Pursuit.TickDrone | main.js:438-462 | one drone's turn leaves every other drone untouched; the drone stays, or moves one cell and remembers its old cell with its hits kept; with no node left it stays |
| Pursuit.TickDroneFilter | main.js:438-462 | a drone that moves goes to a cell that is not its previous cell, in bounds, free of drones, and not on or next to a node; a drone that stays had no node or no admissible direction |
| Pursuit.NoneAdmissible | main.js:438-462 | if every candidate of a full plan is refused, every direction is refused |
| Pursuit.TickKeepsSafe | main.js:445-458 | one drone's move keeps all drones in bounds, on distinct cells, and off and away from nodes |
| Pursuit.MoveFrom | main.js:404-464 | the in-order loop over the drones from turn i: the drones before i, whose turns are over, are untouched, and the number of drones is kept |
| Pursuit.MoveFromIsMoveAlong | main.js:405-418 | each drone plans from the cell it has at its turn, and only its own move changes that cell |
| Pursuit.MoveAlongSteps | main.js:404-464 | over a tick every drone either stays or moves one cell and remembers its old cell; hit counts are kept |
| Pursuit.MoveAlongIdle | main.js:416 | with no nodes left no drone moves |
| Pursuit.MoveAlongSafe | main.js:404-464 | a whole tick keeps the drones safe |
| Pursuit.MoveFromSteps | main.js:404-464 | over the in-order tick every drone stays or moves one cell, remembering its old cell and keeping its hits |
| Pursuit.MoveFromIdle | main.js:416 | with no nodes left the in-order tick moves no drone |
| Pursuit.MoveFromSafe | main.js:404-464 | the in-order tick keeps the drones safe |
| Pursuit.Turns | main.js:404-464 | after the first k turns, the drones from k on are still untouched |
| Pursuit.TurnsThenRest | main.js:404-464 | a tick is the first k turns followed by the remaining turns |
| Pursuit.TurnOutcome | main.js:404-464 | each drone ends the tick where its own turn left it |
| Pursuit.MoveFromTurn | main.js:404-436 | in the in-order tick, a drone plans from its own start-of-tick cell toward the nearest node and takes its turn among the drones as the earlier turns left them |
| Pursuit.MoveFromFilter | main.js:438-462 | over the in-order tick a moving drone lands on a cell that passes the filter at its turn and is not the cell it left last time; a drone that stays found no admissible direction |
| Pursuit.MoveDrones | main.js:403-465 | outside play or with no nodes nothing changes; otherwise only drones change, each staying or moving one cell, and safety is kept |
| Pursuit.MoveDronesTurn | main.js:404-464 | in play, each drone ends the tick as its own turn leaves it, planned from its start-of-tick cell among the drones as the earlier turns left them; a drone that moves passes the filter and does not go back to the cell it left last time; a drone that stays found no admissible direction |
| Runner.Chosen | main.js:708-721 | the acted-on direction is a held one of highest priority (left, right, up, down), and there is none only when no key is held |
| Runner.MoveRunner | main.js:706-742 | outside play or with no key nothing changes; otherwise the facing becomes the chosen direction even when blocked, and the runner moves one cell that way exactly when the target is on the field |
| Runner.LeftClampsAtEdge | main.js:722-728 | holding left for k ticks moves the runner k cells left or to column 0, whichever comes first |
| Spawn.PlaceNodes | main.js:139-159 | nodes are placed from the drawn cells, pairwise distinct and never on (25,25); placement succeeds whenever the draws hold as many distinct acceptable cells as nodes are wanted, and fails when the draws are fewer than the nodes |
| Spawn.PlaceNodesSucceeds | main.js:143-150 | with enough distinct acceptable cells in the first draws, the nodes are placed from those draws alone and the later draws are left over |
| Spawn.PlaceNodesAppend | main.js:143-150 | draws after the point where the node loop stops change only what is left over |
| Spawn.PlaceNodesFirstFit | main.js:142-150 | when every draw is acceptable, the nodes are exactly the first draws, and the rest is left for the drones |
| Spawn.PlaceDrones | main.js:161-176 | drones are placed from the drawn cells, pairwise distinct, not on or next to a node, and with both coordinates at least 5 away from the centre; placement succeeds whenever the draws hold as many distinct acceptable cells as drones are wanted |
| Spawn.PlaceDronesSucceeds | main.js:165-175 | with enough distinct acceptable cells in the first draws, the drones are placed from those draws alone |
| Spawn.PlaceDronesAppend | main.js:165-175 | draws after the point where the drone loop stops change only what is left over |
| Spawn.CrossIsStricterThanBall | main.js:174 | every admitted drone cell is at Chebyshev distance at least 5 from the centre, but far cells on the centre row or column are refused too |
| Combat.CollectNode | main.js:375-393 | a node is collected exactly when playing and the runner is on its cell; it is spliced out with the other nodes kept in order, the counter rises by one, and victory follows exactly when the counter reaches the total |
| Combat.HitDrone | main.js:395-401 | corrected behaviour: drone contact ends a game in play in the single game-over state, and changes nothing otherwise |
| Combat.FireBullet | main.js:791-810 | while playing, one bullet is added on the runner's cell heading in the facing direction; otherwise nothing changes |
| Combat.Moved | main.js:773-779 | a due bullet moves one cell in its direction; one that is not due stays put |
| Combat.AdvanceAll | main.js:771-787 | after a frame every bullet is on the field, and a bullet survives exactly when its advanced position is on the field |
| Combat.AdvanceAllKeepsOrder | main.js:771-787 | the bullets after a frame are the moved bullets that stay on the field, in their original order, each exactly once |
| Combat.StepBullets | main.js:744-787 | bullets move only while playing; then the bullets left are exactly the moved bullets that stay on the field, in order |
| Combat.FlyIsStraight | main.js:774-777 | a bullet travels in a straight line, one cell per step |
| Combat.LoneBulletFrame | main.js:781-786 | a bullet is removed exactly when its next cell leaves the field |
| Combat.HealthFraction | main.js:359 | the health fraction lies in [0,1], is 1 before any hit, and is 0 exactly from the third hit |
| Combat.HealthDecreases | main.js:359 | each hit below three removes a third of the bar; further hits change nothing |
| Combat.BulletHit | main.js:353-372 | the bullet is spliced out; the drone takes a hit; at three hits it is spliced out with the other drones kept in order and the counter drops by one; the counter minus the drones is unchanged |
| Session.PauseKey | main.js:277-285 | P swaps playing and paused and leaves every other state unchanged |
| Session.PauseTwice | main.js:277-285 | pressing P twice restores the state |
| Session.Restart | main.js:665-704 | restart goes to the menu with the counter cleared and the field empty; level, facing and drone counter are kept |
| Session.RestartIdempotent | main.js:665-704 | restarting twice is restarting once |
| Session.SelectLevel | main.js:504-515 | a level button chooses that level and starts play |
| Session.ProceedToNextLevel | main.js:644-663 | the next level is min(level+1, 5), the counter is cleared and play resumes |
| Session.Create | main.js:66-207 | in the menu nothing is built; otherwise the level's numbers of nodes and drones are placed safely, the runner is on the centre, there are no bullets, and the drone counter matches; too few draws fail |
| Session.CreateDronesClear | main.js:165-175 | in a freshly built level every drone is off and not next to any node, and at least five columns and five rows from the runner on its start cell (25,25) |
| Session.CreateSucceeds | main.js:139-176 | a level is always built when the node draws hold enough distinct acceptable cells for the nodes and the drone draws hold enough for the drones |
| Session.SplitSucceeds | main.js:139-176 | a level is built from any stream of draws that splits into such node draws and drone draws |
| Session.StartLevel | main.js:504-515 | a level button produces play at that level with that level's numbers of nodes and drones, and always does so when the draws are ample |
| Session.NextLevel | main.js:644-663 | advancing produces play at the next level with an empty counter and that level's nodes, and always does so when the draws are ample |
| Session.VictorySpace | main.js:630-641 | Space on the victory screen proceeds below the last level and restarts at the last, and always succeeds when the draws are ample for the next level; elsewhere it does nothing |
| Session.GameOverSpace | main.js:565-570 | corrected behaviour: Space on the single game-over state restarts; elsewhere it does nothing |
| Session.SafeAmongFewer | main.js:445-452 | drones safe among some nodes stay safe once nodes are collected |
| Session.SafeWithout | main.js:365-367 | removing a destroyed drone keeps the others safe |
| Session.CollectKeepsInv | main.js:375-393 | collecting keeps the invariant, including victory exactly at zero nodes left |
| Session.BulletHitKeepsInv | main.js:353-372 | a bullet hit keeps the drone counter equal to the drones on the field and every drone below three hits |
| Session.ArenaWithDrones | main.js:445-458 | replacing the drones by as many safe drones below three hits keeps the arena consistent |
| Session.TickKeepsHits | main.js:438-462 | the drone tick never changes hit counts, so every drone stays below three hits |
| Session.MoveDronesKeepsInv | main.js:403-465 | the drone tick keeps the invariant |
| Session.CreateKeepsInv | main.js:133-207 | a freshly built level satisfies the invariant |
| Session.PauseKeepsInv | main.js:277-285 | pausing and resuming keep the invariant |
| Session.MoveRunnerKeepsInv | main.js:706-742 | the runner's move keeps the invariant |
| Session.HitDroneKeepsInv | main.js:395-401 | drone contact keeps the invariant |
| Session.FireKeepsInv | main.js:791-810 | firing keeps the invariant |
| Session.StepBulletsKeepsInv | main.js:744-787 | stepping the bullets keeps the invariant |
| Session.RestartKeepsInv | main.js:665-704 | restarting, by the button or the game-over Space key, keeps the invariant |
| Session.VictorySpaceKeepsInv | main.js:630-641 | Space on the victory screen keeps the invariant |
| Session.Apply | main.js:264-641 | level buttons act only in the menu and start play at the chosen level; the next-level button only on the victory screen below the last level; the restart button only on the victory and game-over screens; contacts only between objects on the same cell; keys, fire, the drone tick and the bullet frame change nothing outside play; each Space key acts only on its own screen |
| Session.ScreenEventKeepsInv | main.js:504-663 | the level buttons, P, the Space keys and the next-level and restart clicks keep the invariant |
| Session.PlayEventKeepsInv | main.js:264-372 | the keys, node, drone and bullet contacts, the drone tick, firing and bullet frames keep the invariant |
| Session.ApplyKeepsInv | main.js:264-641 | every event keeps the invariant |
| Session.RunKeepsInv | main.js:264-641 | every sequence of events from a state satisfying the invariant keeps it |
| Session.ReachableCounters | main.js:207 | in every reachable state the drone counter is not negative, including the stale counter restart keeps in the menu; outside the menu it equals the drones on the field, and collected plus remaining nodes equals the total; in the menu the field is empty and nothing is collected; no more nodes are collected than the total |
| SourceLabels.Label | main.js:23 | the labels "menu", "playing" and "gameover" name exactly the menu, play and game-over states, and no state is labelled "gameOver" |
| SourceLabels.LabelInjective | main.js:23 | distinct states have distinct labels |
| SourceLabels.ShowGameOverScreen | main.js:532 | the game-over screen sets the label "gameOver" whatever the state was, and that is the label of no state of the game |
| SourceLabels.HitDroneAsWritten | main.js:395-401 | as written, drone contact in play leaves the label "gameOver", not the label "gameover" |
| SourceLabels.GameOverSpaceAsWritten | main.js:565-570 | as written, the Space listener leaves for the menu only from "gameover" |
| SourceLabels.SpaceAfterLossIsDead | main.js:532 | as written, losing and then pressing Space leaves the game on the game-over screen |
| SourceLabels.SpaceAfterLossRestarts | main.js:549 | with one game-over state, losing and then pressing Space returns to the menu |

## Left out

- Rendering: the grid, sprites, HUD text, health-bar widths and colours, the menu, victory and game-over screens, the camera, and the "All Drones Eliminated" message. These are presentation only.
- Audio and muting. These are foreign I/O.
- Phaser timers: the drone tick interval, the movement and fire repeats, and the per-bullet 100 ms step. Each callback is one event. The event order is the caller's choice.
- Physics pausing. The world is paused on the pause, victory and game-over screens (main.js:280, 390, 398), which stops overlap detection there; restart un-pauses it before the menu (main.js:676), and the menu has no objects that can touch. Contacts are events, and the model accepts the bullet/drone contact in any state, as its handler does.
- Arcade physics bodies and overlap tests. Contact is modelled as two objects on the same cell.
- Keyboard, DOM and d-pad plumbing. Held keys are a set of directions; the d-pad touch geometry is not modelled.
- Randomness. It is supplied as parameters: a stream of cells for placement, and partner indices for each shuffle.
- Spawn.PlaceNodes: the unbounded redraw loop is modelled by a finite stream of cells. A placement that would loop forever is a placement whose stream runs out.
- Pursuit.Nearest: the float Euclidean distance of the source is modelled as the exact squared cell distance. Pixel distance is a constant multiple of it, so no comparison changes.
- Combat.HitDrone: the source writes 'gameover' here and the game-over screen overwrites it with 'gameOver' (main.js:532). `State.Phase` merges the two spellings into one game-over state, so the event model is the corrected game; `SourceLabels` carries the code as written.
- Session.GameOverSpace: as written, the listener at main.js:566 never fires after a drone contact, because the state is then 'gameOver'. The model's single game-over state makes Space restart, which is the corrected game; `SourceLabels.SpaceAfterLossIsDead` states the code as written.
- Combat.AdvanceAll: the source's skipping of the bullet that follows a destroyed one (main.js:772-786 walks the live list) is not a rule of the model; the caller expresses it through `due`, and the skipped bullet's own out-of-field check is then made on its unmoved cell, which is on the field.
- Session.Restart: the scene restart discards every game object. The model shows this as an empty field in the menu, and does not model the stale object references the globals keep.
- The order of input, collection and drone ticks within one frame is not modelled. Every interleaving of events is allowed.

## Findings

| source | as written | input that shows it | evidently intended | confidence | as-written member | corrected member |
|---|---|---|---|---|---|---|
| main.js:532 | `hitDrone` sets the state to 'gameover' (main.js:397). The game-over screen then overwrites it with 'gameOver'. The screen's Space listener restarts only from 'gameover' (main.js:566). | Touch a drone while playing, then press Space. The state stays 'gameOver', so the 'Restart (Space)' label (main.js:549) does nothing. | One game-over state, which the Space listener recognises, so that Space returns to the menu. | not executed | SourceLabels.SpaceAfterLossIsDead | SourceLabels.SpaceAfterLossRestarts |

=== FILE: combat.dfy ===
/**
 Contacts and shooting: collecting a data node, touching a drone, firing,
 the bullets' grid steps and a bullet hitting a drone.
 */
module Combat {
  import opened Grid
  import opened Sequences
  import opened State

  // ---- data nodes and drone contact ---------------------------------------

  /** `collectNode` for node `k`: only while playing and only on the runner's own cell. */
  function CollectNode(g: Game, k: nat): (r: Game)
    requires k < |g.nodes|
    ensures (r != g) <==> (g.phase == Playing && g.runner == g.nodes[k])
    ensures r != g ==>
              && r.nodes == RemoveAt(g.nodes, k)
              && multiset(r.nodes) == multiset(g.nodes) - multiset{g.nodes[k]}
              && r.collected == g.collected + 1
              && (r.phase == Victory <==> r.collected == g.total)
              && (r.phase == Victory || r.phase == Playing)
              && r == g.(nodes := r.nodes, collected := r.collected, phase := r.phase)
    ensures r.collected + |r.nodes| == g.collected + |g.nodes|
  {
    if g.phase != Playing || g.runner != g.nodes[k] then g
    else
      var n := g.collected + 1;
      g.(nodes := RemoveAt(g.nodes, k), collected := n, phase := if n == g.total then Victory else Playing)
  }

  /** `hitDrone`: touching a drone ends a game in play, and does nothing otherwise. */
  function HitDrone(g: Game): (r: Game)
    ensures r == g.(phase := r.phase)
    ensures g.phase != Playing ==> r == g
    ensures g.phase == Playing ==> r.phase == GameOver
  {
    if g.phase == Playing then g.(phase := GameOver) else g
  }

  // ---- bullets ------------------------------------------------------------

  /** `fireBullet`: while playing, a bullet appears on the runner's cell heading the way the runner faces. */
  function FireBullet(g: Game): (r: Game)
    ensures g.phase != Playing ==> r == g
    ensures g.phase == Playing ==>
              && r == g.(bullets := r.bullets)
              && |r.bullets| == |g.bullets| + 1 && g.bullets <= r.bullets
              && r.bullets[|g.bullets|].pos == g.runner
              && r.bullets[|g.bullets|].dir == g.lastDir
  {
    if g.phase == Playing then g.(bullets := g.bullets + [Bullet(g.runner, g.lastDir)]) else g
  }

  /** A bullet after a frame: one cell along its direction when its step is due. */
  function Moved(b: Bullet, due: bool): (r: Bullet)
    ensures r.dir == b.dir
    ensures due ==> Neighbours(b.pos, r.pos) && Step(r.pos, Opposite(b.dir)) == b.pos
    ensures !due ==> r == b
  {
    StepIsUnit(b.pos, b.dir);
    if due then Bullet(Step(b.pos, b.dir), b.dir) else b
  }

  /**
   One frame for a list of bullets: the due ones advance, then every bullet
   off the field is removed; the survivors keep their order.
   */
  function AdvanceAll(bs: seq<Bullet>, due: seq<bool>): (r: seq<Bullet>)
    requires |due| == |bs|
    ensures |r| <= |bs|
    ensures forall b :: b in r ==> InGrid(b.pos)
    ensures forall b :: b in r <==> exists k :: 0 <= k < |bs| && b == Moved(bs[k], due[k]) && InGrid(b.pos)
    decreases |bs|
  {
    if |bs| == 0 then []
    else
      var b := Moved(bs[0], due[0]);
      var rest := AdvanceAll(bs[1..], due[1..]);
      assert forall k :: 0 < k < |bs| ==> Moved(bs[k], due[k]) == Moved(bs[1..][k - 1], due[1..][k - 1]);
      if InGrid(b.pos) then [b] + rest else rest
  }

  /** Bullet `k` is still on the field after the frame. */
  predicate Survives(bs: seq<Bullet>, due: seq<bool>, k: nat)
    requires k < |bs| == |due|
  {
    InGrid(Moved(bs[k], due[k]).pos)
  }

  /** Index `k` occurs in `idx`. */
  predicate Picked(idx: seq<nat>, k: nat) {
    exists j :: 0 <= j < |idx| && idx[j] == k
  }

  /**
   `r` lists, in their original order, the advanced bullets of `bs` that are
   on the field: `idx` picks them out by strictly increasing index, and it
   picks exactly the indices whose advanced bullet is on the field.
   */
  predicate SurvivorsAt(r: seq<Bullet>, bs: seq<Bullet>, due: seq<bool>, idx: seq<nat>)
    requires |due| == |bs|
  {
    && |idx| == |r|
    && (forall j :: 0 <= j < |idx| ==> idx[j] < |bs| && r[j] == Moved(bs[idx[j]], due[idx[j]]))
    && (forall i, j :: 0 <= i < j < |idx| ==> idx[i] < idx[j])
    && (forall k :: 0 <= k < |bs| ==> (Survives(bs, due, k) <==> Picked(idx, k)))
  }

  /** Indices one further on, as when a list loses its head. */
  function ShiftUp(ti: seq<nat>): (r: seq<nat>)
    ensures |r| == |ti|
    ensures forall j :: 0 <= j < |r| ==> r[j] == ti[j] + 1
  {
    seq(|ti|, j requires 0 <= j < |ti| => ti[j] + 1)
  }

  /** Index `k` of a list is index `k - 1` of its tail. */
  lemma SurvivesInTail(bs: seq<Bullet>, due: seq<bool>, k: nat)
    requires 1 <= k < |bs| == |due|
    ensures Survives(bs, due, k) == Survives(bs[1..], due[1..], k - 1)
  {
    assert bs[1..][k - 1] == bs[k] && due[1..][k - 1] == due[k];
  }

  /** Shifting the indices shifts what they pick. */
  lemma PickedShift(ti: seq<nat>, k: nat)
    requires k >= 1
    ensures Picked(ShiftUp(ti), k) == Picked(ti, k - 1)
  {
    var sh := ShiftUp(ti);
    if Picked(sh, k) {
      var j :| 0 <= j < |sh| && sh[j] == k;
      assert ti[j] == k - 1;
    }
    if Picked(ti, k - 1) {
      var j :| 0 <= j < |ti| && ti[j] == k - 1;
      assert sh[j] == k;
    }
  }

  /** Survivors of the tail are survivors of the whole list, one index further on. */
  lemma SurvivorsShift(bs: seq<Bullet>, due: seq<bool>, tail: seq<Bullet>, ti: seq<nat>)
    requires 0 < |bs| == |due|
    requires SurvivorsAt(tail, bs[1..], due[1..], ti)
    ensures var sh := ShiftUp(ti);
            && (forall j :: 0 <= j < |sh| ==> 1 <= sh[j] < |bs| && tail[j] == Moved(bs[sh[j]], due[sh[j]]))
            && (forall i, j :: 0 <= i < j < |sh| ==> sh[i] < sh[j])
            && (forall k :: 1 <= k < |bs| ==> (Survives(bs, due, k) <==> Picked(sh, k)))
  {
    var sh := ShiftUp(ti);
    forall j | 0 <= j < |sh| ensures 1 <= sh[j] < |bs| && tail[j] == Moved(bs[sh[j]], due[sh[j]]) {
      assert bs[1..][ti[j]] == bs[sh[j]] && due[1..][ti[j]] == due[sh[j]];
    }
    forall k | 1 <= k < |bs| ensures Survives(bs, due, k) <==> Picked(sh, k) {
      SurvivesInTail(bs, due, k);
      PickedShift(ti, k);
    }
  }

  /** A head that leaves the field is dropped. */
  lemma SurvivorsDropHead(bs: seq<Bullet>, due: seq<bool>, tail: seq<Bullet>, ti: seq<nat>)
    requires 0 < |bs| == |due|
    requires SurvivorsAt(tail, bs[1..], due[1..], ti)
    requires !Survives(bs, due, 0)
    ensures SurvivorsAt(tail, bs, due, ShiftUp(ti))
  {
    var sh := ShiftUp(ti);
    SurvivorsShift(bs, due, tail, ti);
    assert !Picked(sh, 0);
  }

  /** Putting index 0 in front of increasing indices from 1 on keeps them increasing. */
  lemma ConsZeroIncreasing(sh: seq<nat>)
    requires forall j :: 0 <= j < |sh| ==> sh[j] >= 1
    requires forall i, j :: 0 <= i < j < |sh| ==> sh[i] < sh[j]
    ensures var idx := [0] + sh;
            forall i, j :: 0 <= i < j < |idx| ==> idx[i] < idx[j]
  {
    var idx := [0] + sh;
    forall i, j | 0 <= i < j < |idx| ensures idx[i] < idx[j] {
      assert idx[j] == sh[j - 1];
      if i > 0 { assert idx[i] == sh[i - 1]; }
    }
  }

  /** Putting index 0 in front picks 0 and everything picked before. */
  lemma ConsZeroPicks(sh: seq<nat>, k: nat)
    ensures Picked([0] + sh, k) <==> k == 0 || Picked(sh, k)
  {
    var idx := [0] + sh;
    assert idx[0] == 0;
    if Picked(sh, k) {
      var j :| 0 <= j < |sh| && sh[j] == k;
      assert idx[j + 1] == k;
    }
    if Picked(idx, k) && k != 0 {
      var j :| 0 <= j < |idx| && idx[j] == k;
      assert sh[j - 1] == k;
    }
  }

  /** A head that stays on the field comes first. */
  lemma SurvivorsKeepHead(bs: seq<Bullet>, due: seq<bool>, tail: seq<Bullet>, ti: seq<nat>)
    requires 0 < |bs| == |due|
    requires SurvivorsAt(tail, bs[1..], due[1..], ti)
    requires Survives(bs, due, 0)
    ensures SurvivorsAt([Moved(bs[0], due[0])] + tail, bs, due, [0] + ShiftUp(ti))
  {
    var sh := ShiftUp(ti);
    SurvivorsShift(bs, due, tail, ti);
    var idx := [0] + sh;
    var r := [Moved(bs[0], due[0])] + tail;
    forall j | 0 <= j < |idx| ensures idx[j] < |bs| && r[j] == Moved(bs[idx[j]], due[idx[j]]) {
      if j > 0 { assert idx[j] == sh[j - 1] && r[j] == tail[j - 1]; }
    }
    ConsZeroIncreasing(sh);
    forall k | 0 <= k < |bs| ensures Survives(bs, due, k) <==> Picked(idx, k) {
      ConsZeroPicks(sh, k);
    }
  }

  /** A frame keeps the surviving bullets in order, one entry per surviving bullet, duplicates included. */
  lemma {:induction false} AdvanceAllKeepsOrder(bs: seq<Bullet>, due: seq<bool>)
    requires |due| == |bs|
    ensures exists idx :: SurvivorsAt(AdvanceAll(bs, due), bs, due, idx)
    decreases |bs|
  {
    if |bs| == 0 {
      assert AdvanceAll(bs, due) == [];
      assert SurvivorsAt([], bs, due, []);
    } else {
      var tail := AdvanceAll(bs[1..], due[1..]);
      AdvanceAllKeepsOrder(bs[1..], due[1..]);
      var ti :| SurvivorsAt(tail, bs[1..], due[1..], ti);
      if Survives(bs, due, 0) {
        SurvivorsKeepHead(bs, due, tail, ti);
        assert SurvivorsAt(AdvanceAll(bs, due), bs, due, [0] + ShiftUp(ti));
      } else {
        SurvivorsDropHead(bs, due, tail, ti);
        assert SurvivorsAt(AdvanceAll(bs, due), bs, due, ShiftUp(ti));
      }
    }
  }

  /** The bullet part of `update`: bullets move only while playing. */
  function StepBullets(g: Game, due: seq<bool>): (r: Game)
    requires |due| == |g.bullets|
    ensures r == g.(bullets := r.bullets)
    ensures g.phase != Playing ==> r == g
    ensures g.phase == Playing ==> forall b :: b in r.bullets ==> InGrid(b.pos)
    ensures g.phase == Playing ==> exists idx :: SurvivorsAt(r.bullets, g.bullets, due, idx)
    ensures |r.bullets| <= |g.bullets|
  {
    if g.phase == Playing then
      AdvanceAllKeepsOrder(g.bullets, due);
      g.(bullets := AdvanceAll(g.bullets, due))
    else g
  }

  /** Position of a bullet after `k` steps in flight. */
  function Fly(b: Bullet, k: nat): Bullet
    decreases k
  {
    if k == 0 then b else Fly(Moved(b, true), k - 1)
  }

  /** A bullet travels in a straight line, one cell per step. */
  lemma {:induction false} FlyIsStraight(b: Bullet, k: nat)
    ensures Fly(b, k).dir == b.dir
    ensures Fly(b, k).pos == Cell(b.pos.x + k * DeltaX(b.dir), b.pos.y + k * DeltaY(b.dir))
    decreases k
  {
    if k > 0 {
      FlyIsStraight(Moved(b, true), k - 1);
    }
  }

  /** A lone in-flight bullet survives a frame exactly when its next cell is on the field. */
  lemma LoneBulletFrame(b: Bullet)
    ensures AdvanceAll([b], [true]) == (if InGrid(Step(b.pos, b.dir)) then [Moved(b, true)] else [])
  {
    assert [b][1..] == [];
  }

  // ---- bullet hits a drone ------------------------------------------------

  const HitsToDestroy: nat := 3

  /** The drone's health-bar fraction after `hits` hits. */
  function HealthFraction(hits: nat): (r: real)
    ensures 0.0 <= r <= 1.0
    ensures r == 0.0 <==> hits >= HitsToDestroy
    ensures hits == 0 ==> r == 1.0
  {
    var p := 1.0 - (hits as real) / (HitsToDestroy as real);
    if p > 0.0 then p else 0.0
  }

  /** Each hit lowers the health bar by a third until it is empty. */
  lemma HealthDecreases(hits: nat)
    ensures hits < HitsToDestroy ==> HealthFraction(hits + 1) == HealthFraction(hits) - 1.0 / 3.0
    ensures hits >= HitsToDestroy ==> HealthFraction(hits + 1) == HealthFraction(hits)
  {
  }

  /**
   The bullet/drone overlap handler for bullet `bi` and drone `di`: the
   bullet is used up, the drone takes a hit, and a drone with three hits is
   removed and counted off. It does not look at the game state.
   */
  function BulletHit(g: Game, bi: nat, di: nat): (r: Game)
    requires bi < |g.bullets| && di < |g.drones|
    ensures r == g.(bullets := r.bullets, drones := r.drones, dronesRemaining := r.dronesRemaining)
    ensures r.bullets == RemoveAt(g.bullets, bi)
    ensures multiset(r.bullets) == multiset(g.bullets) - multiset{g.bullets[bi]}
    ensures |r.bullets| == |g.bullets| - 1
    ensures var d := g.drones[di];
            if HealthFraction(d.hits + 1) == 0.0 then
              && r.drones == RemoveAt(g.drones, di)
              && multiset(r.drones) == multiset(g.drones) - multiset{d}
              && r.dronesRemaining == g.dronesRemaining - 1
            else
              && r.drones == g.drones[di := d.(hits := d.hits + 1)]
              && r.dronesRemaining == g.dronesRemaining
    ensures r.dronesRemaining - |r.drones| == g.dronesRemaining - |g.drones|
  {
    var d := g.drones[di];
    var hit := d.(hits := d.hits + 1);
    var bullets := RemoveAt(g.bullets, bi);
    if hit.hits >= HitsToDestroy then
      g.(bullets := bullets, drones := RemoveAt(g.drones, di), dronesRemaining := g.dronesRemaining - 1)
    else
      g.(bullets := bullets, drones := g.drones[di := hit])
  }
}

=== FILE: grid.dfy ===
/**
 The 50 x 50 play field: cells, compass directions, distances, and the
 conversion between a cell and the pixel centre the scene stores for it.
 */
module Grid {

  /** Cells along each side of the field. */
  const Size: int := 50
  /** Side of one cell in pixels. */
  const CellPx: int := 32
  const HalfCellPx: int := 16

  datatype Cell = Cell(x: int, y: int)

  /** Compass directions; `y` grows downward, as on screen. */
  datatype Dir = Up | Down | Left | Right

  /** The runner's spawn cell. */
  const Centre: Cell := Cell(25, 25)

  predicate InGrid(c: Cell) {
    0 <= c.x < Size && 0 <= c.y < Size
  }

  function Abs(n: int): nat {
    if n < 0 then -n else n
  }

  function Max(a: int, b: int): int {
    if a < b then b else a
  }

  function DeltaX(d: Dir): int {
    match d
    case Left => -1
    case Right => 1
    case _ => 0
  }

  function DeltaY(d: Dir): int {
    match d
    case Up => -1
    case Down => 1
    case _ => 0
  }

  function Opposite(d: Dir): Dir {
    match d
    case Up => Down
    case Down => Up
    case Left => Right
    case Right => Left
  }

  /** The neighbouring cell in direction `d`. */
  function Step(c: Cell, d: Dir): Cell {
    Cell(c.x + DeltaX(d), c.y + DeltaY(d))
  }

  /** Two cells that share a side. */
  predicate Neighbours(a: Cell, b: Cell) {
    Abs(a.x - b.x) + Abs(a.y - b.y) == 1
  }

  /** Every direction is a unit vector along one axis, and stepping back undoes a step. */
  lemma StepIsUnit(c: Cell, d: Dir)
    ensures Abs(DeltaX(d)) + Abs(DeltaY(d)) == 1
    ensures Neighbours(c, Step(c, d))
    ensures Step(Step(c, d), Opposite(d)) == c
  {
  }

  function Chebyshev(a: Cell, b: Cell): nat {
    Max(Abs(a.x - b.x), Abs(a.y - b.y))
  }

  /** Squared Euclidean distance between two cells. */
  function SqDist(a: Cell, b: Cell): int {
    (a.x - b.x) * (a.x - b.x) + (a.y - b.y) * (a.y - b.y)
  }

  /**
   A cell touches one of `nodes` without being on it: both coordinate
   differences are at most one and the cells differ.
   */
  predicate AdjacentToAny(nodes: seq<Cell>, c: Cell) {
    exists n :: n in nodes && Abs(n.x - c.x) <= 1 && Abs(n.y - c.y) <= 1 && n != c
  }

  /** Being on a node or adjacent to one is being within Chebyshev distance one of a node. */
  lemma NearIsChebyshev(nodes: seq<Cell>, c: Cell)
    ensures (c in nodes || AdjacentToAny(nodes, c)) <==> (exists n :: n in nodes && Chebyshev(n, c) <= 1)
  {
    if c in nodes {
      assert Chebyshev(c, c) == 0;
    }
  }

  // ---- pixel encoding -----------------------------------------------------

  /** The pixel coordinate of the centre of cell index `g`. */
  function CentrePx(g: int): int {
    g * CellPx + HalfCellPx
  }

  /**
   JavaScript's Math.round applied to the rational num/den: the nearest
   integer, halves rounded toward positive infinity.
   */
  function JsRound(num: int, den: int): (r: int)
    requires den > 0
    ensures 2 * den * r - den <= 2 * num < 2 * den * r + den
  {
    var q := (2 * num + den) / (2 * den);
    assert 2 * den * q <= 2 * num + den < 2 * den * q + 2 * den by {
      DivBounds(2 * num + den, 2 * den);
    }
    q
  }

  lemma DivBounds(a: int, b: int)
    requires b > 0
    ensures b * (a / b) <= a < b * (a / b) + b
  {
  }

  /** Cell index read back from a pixel coordinate, `round((p - 16) / 32)`. */
  function PixelToCell(p: int): int {
    JsRound(p - HalfCellPx, CellPx)
  }

  /** Cell index shown by the heads-up display, `floor(p / 32)`. */
  function HudCell(p: int): int {
    p / CellPx
  }

  /** The cell whose centre is `p` is the only cell within half a cell of `p`. */
  lemma PixelToCellNearest(p: int)
    ensures CentrePx(PixelToCell(p)) - HalfCellPx <= p < CentrePx(PixelToCell(p)) + HalfCellPx
  {
  }

  /** Both read-back formulas agree on every pixel coordinate. */
  lemma RoundAgreesWithHud(p: int)
    ensures PixelToCell(p) == HudCell(p)
  {
    var r := PixelToCell(p);
    PixelToCellNearest(p);
    assert r * 32 <= p < r * 32 + 32;
    DivBounds(p, 32);
  }

  /** Storing a cell as its pixel centre and reading it back by either formula gives the cell. */
  lemma CellPixelRoundTrip(g: int)
    ensures PixelToCell(CentrePx(g)) == g
    ensures HudCell(CentrePx(g)) == g
  {
    PixelToCellNearest(CentrePx(g));
    RoundAgreesWithHud(CentrePx(g));
  }
}

=== FILE: labels.dfy ===
/**
 The game state as the source stores it: a string. Two spellings of the
 game-over state are in use. The contact handler writes "gameover", the
 game-over screen it then shows overwrites that with "gameOver", and the
 screen's Space listener waits for "gameover". This module models that
 sequence as written and relates the corrected `Phase` enum to the labels.
 */
module SourceLabels {
  import opened State
  import opened Combat
  import opened Session

  /** The label the source uses for each state; the game-over label is the one the Space listener tests. */
  function Label(p: Phase): (s: string)
    ensures s == "menu" <==> p == Menu
    ensures s == "playing" <==> p == Playing
    ensures s == "gameover" <==> p == GameOver
    ensures s != "gameOver"
  {
    match p
    case Menu => "menu"
    case Playing => "playing"
    case Paused => "paused"
    case Victory => "victory"
    case GameOver => "gameover"
  }

  /** Different states have different labels, so the enum loses nothing. */
  lemma LabelInjective(p: Phase, q: Phase)
    ensures Label(p) == Label(q) <==> p == q
  {
    if p != q {
      assert Label(p)[0] != Label(q)[0] || Label(p)[1] != Label(q)[1];
    }
  }

  /**
   The game-over screen sets its own label whatever the state was, and that
   label is the label of no state.
   */
  function ShowGameOverScreen(s: string): (r: string)
    ensures r == "gameOver"
    ensures forall p: Phase :: r != Label(p)
  {
    "gameOver"
  }

  /** `hitDrone` as written: in play it labels the state "gameover", then shows the game-over screen. */
  function HitDroneAsWritten(s: string): (r: string)
    ensures s != "playing" ==> r == s
    ensures s == "playing" ==> r == "gameOver" && r != Label(GameOver)
  {
    if s != "playing" then s
    else
      var labelled := "gameover";
      ShowGameOverScreen(labelled)
  }

  /** The game-over screen's Space listener as written: it restarts only from "gameover". */
  function GameOverSpaceAsWritten(s: string): (r: string)
    ensures s == Label(GameOver) ==> r == Label(Menu)
    ensures s != Label(GameOver) ==> r == s
  {
    if s == "gameover" then "menu" else s
  }

  /**
   As written, losing and then pressing Space leaves the game on the
   game-over screen: the label the listener waits for has already been
   replaced.
   */
  lemma SpaceAfterLossIsDead()
    ensures HitDroneAsWritten("playing") == "gameOver"
    ensures GameOverSpaceAsWritten(HitDroneAsWritten("playing")) == "gameOver"
    ensures GameOverSpaceAsWritten(HitDroneAsWritten("playing")) != Label(Menu)
  {
  }

  /**
   With one game-over state, losing and then pressing Space returns to the
   menu, and the labels follow the listener's intent.
   */
  lemma SpaceAfterLossRestarts(g: Game)
    requires g.phase == Playing
    ensures Label(HitDrone(g).phase) == Label(GameOver)
    ensures GameOverSpace(HitDrone(g)) == Restart(g)
    ensures Label(GameOverSpace(HitDrone(g)).phase) == GameOverSpaceAsWritten(Label(HitDrone(g).phase))
  {
  }
}

=== FILE: levels.dfy ===
/** The fixed table of five level configurations and level progression. */
module Levels {

  datatype LevelConfig = LevelConfig(dataNodes: nat, droneCount: nat, droneMoveDelay: nat)

  const MaxLevel: int := 5

  /** Level `i` (1-based) uses entry `i - 1`; the delay is in milliseconds. */
  const Table: seq<LevelConfig> := [
    LevelConfig(8, 6, 600),
    LevelConfig(10, 8, 500),
    LevelConfig(12, 10, 400),
    LevelConfig(15, 12, 300),
    LevelConfig(18, 14, 200)
  ]

  /** The configuration of `level`; an index outside the table falls back to its last entry. */
  function ConfigFor(level: int): (c: LevelConfig)
    ensures c in Table
    ensures 1 <= level <= MaxLevel ==> c == Table[level - 1]
    ensures !(1 <= level <= MaxLevel) ==> c == Table[MaxLevel - 1]
  {
    if 1 <= level <= |Table| then Table[level - 1] else Table[|Table| - 1]
  }

  /** A later level has more data nodes, more drones and a shorter drone tick. */
  predicate Harder(a: LevelConfig, b: LevelConfig) {
    a.dataNodes < b.dataNodes && a.droneCount < b.droneCount && a.droneMoveDelay > b.droneMoveDelay
  }

  lemma TableStrictlyHarder(a: int, b: int)
    requires 1 <= a < b <= MaxLevel
    ensures Harder(ConfigFor(a), ConfigFor(b))
  {
  }

  /** The level after winning `level`: one more, but never past the last level. */
  function Advance(level: int): (r: int)
    ensures level < MaxLevel ==> r == level + 1
    ensures level >= MaxLevel ==> r == MaxLevel
    ensures 1 <= level <= MaxLevel ==> 1 <= r <= MaxLevel
  {
    if level + 1 <= MaxLevel then level + 1 else MaxLevel
  }

  /** Advancing from any level but the last makes the game strictly harder; from the last it changes nothing. */
  lemma AdvanceIsHarder(level: int)
    requires 1 <= level <= MaxLevel
    ensures level < MaxLevel ==> Harder(ConfigFor(level), ConfigFor(Advance(level)))
    ensures level == MaxLevel ==> ConfigFor(Advance(level)) == ConfigFor(level)
  {
    if level < MaxLevel {
      TableStrictlyHarder(level, level + 1);
    }
  }
}

=== FILE: pursuit.dfy ===
/**
 The drone tick: every drone, in turn, heads for the nearest remaining data
 node, trying a dominant-axis direction first and the other three in a
 shuffled order, and takes the first step that passes the movement filter.
 */
module Pursuit {
  import opened Wrappers
  import opened Grid
  import opened Sequences
  import opened State
  import Shuffle

  // ---- nearest node --------------------------------------------------------

  /**
   `k` is a nearest node to `p` among `nodes[..n]`, and no earlier node is
   as near.
   */
  predicate FirstNearestIn(nodes: seq<Cell>, p: Cell, k: nat, n: nat)
    requires n <= |nodes|
  {
    && k < n
    && (forall j {:trigger SqDist(p, nodes[j])} :: 0 <= j < n ==> SqDist(p, nodes[k]) <= SqDist(p, nodes[j]))
    && (forall j {:trigger SqDist(p, nodes[j])} :: 0 <= j < k ==> SqDist(p, nodes[k]) < SqDist(p, nodes[j]))
  }

  /** The scan over `nodes[i..]`, keeping the first strictly nearer node seen so far. */
  function NearestFrom(nodes: seq<Cell>, p: Cell, i: nat, best: Option<nat>): (r: Option<nat>)
    requires i <= |nodes|
    requires best.None? <==> i == 0
    requires best.Some? ==> FirstNearestIn(nodes, p, best.value, i)
    ensures r.None? <==> |nodes| == 0
    ensures r.Some? ==> FirstNearestIn(nodes, p, r.value, |nodes|)
    decreases |nodes| - i
  {
    if i == |nodes| then best
    else if best.None? || SqDist(p, nodes[i]) < SqDist(p, nodes[best.value]) then
      NearestFrom(nodes, p, i + 1, Some(i))
    else
      NearestFrom(nodes, p, i + 1, best)
  }

  /** The index of the node a drone at `p` pursues; none when no node is left. */
  function Nearest(nodes: seq<Cell>, p: Cell): (r: Option<nat>)
    ensures r.None? <==> |nodes| == 0
    ensures r.Some? ==> FirstNearestIn(nodes, p, r.value, |nodes|)
  {
    NearestFrom(nodes, p, 0, None)
  }

  /** At most one index is the first nearest node, so the pursued node is determined. */
  lemma FirstNearestUnique(nodes: seq<Cell>, p: Cell, k1: nat, k2: nat)
    requires FirstNearestIn(nodes, p, k1, |nodes|) && FirstNearestIn(nodes, p, k2, |nodes|)
    ensures k1 == k2
  {
    assert SqDist(p, nodes[k1]) <= SqDist(p, nodes[k2]);
    assert SqDist(p, nodes[k2]) <= SqDist(p, nodes[k1]);
  }

  // ---- candidate directions ------------------------------------------------

  function HorizontalToward(dx: int): Dir {
    if dx > 0 then Right else Left
  }

  function VerticalToward(dy: int): Dir {
    if dy > 0 then Down else Up
  }

  /** The directions that close the gap `(dx, dy)`, dominant axis first; vertical wins a tie. */
  function Primary(dx: int, dy: int): seq<Dir> {
    if Abs(dx) > Abs(dy) then
      [HorizontalToward(dx)] + (if dy != 0 then [VerticalToward(dy)] else [])
    else if dy != 0 then
      [VerticalToward(dy)] + (if dx != 0 then [HorizontalToward(dx)] else [])
    else
      []
  }

  /** The fixed order in which missing directions are appended. */
  const Compass: seq<Dir> := [Up, Down, Left, Right]

  /** Appends, in the order of `order`, each direction not yet in `list`. */
  function AppendMissing(list: seq<Dir>, order: seq<Dir>): (r: seq<Dir>)
    ensures Distinct(list) ==> Distinct(r)
    ensures forall d :: d in r <==> d in list || d in order
    ensures list <= r
    decreases |order|
  {
    if |order| == 0 then list
    else
      var list' := if order[0] in list then list else list + [order[0]];
      assert forall d :: d in order <==> d == order[0] || d in order[1..] by {
        assert order == [order[0]] + order[1..];
      }
      AppendMissing(list', order[1..])
  }

  /** `s` mentions each of the four directions. */
  predicate HasAllDirs(s: seq<Dir>) {
    Up in s && Down in s && Left in s && Right in s
  }

  /** A duplicate-free list holding every direction is a rearrangement of the four directions. */
  lemma AllFour(s: seq<Dir>)
    requires Distinct(s)
    requires HasAllDirs(s)
    ensures |s| == 4
  {
    DistinctCard(s);
    var all := {Up, Down, Left, Right};
    var present := set x | x in s;
    assert present == all by {
      forall x | x in all ensures x in present { }
      forall x | x in present ensures x in all {
        assert x.Up? || x.Down? || x.Left? || x.Right?;
      }
    }
    assert |all| == 4;
  }

  lemma CompassHasAll()
    ensures HasAllDirs(Compass)
  {
    assert Compass[0] == Up && Compass[1] == Down && Compass[2] == Left && Compass[3] == Right;
  }

  lemma PrimaryDistinct(dx: int, dy: int)
    ensures Distinct(Primary(dx, dy))
  {
  }

  /** The unshuffled candidate list: the primary directions, then the rest in compass order. */
  function Ranked(dx: int, dy: int): (r: seq<Dir>)
    ensures |r| == 4 && Distinct(r) && HasAllDirs(r)
    ensures Primary(dx, dy) <= r
  {
    PrimaryDistinct(dx, dy);
    CompassHasAll();
    var r := AppendMissing(Primary(dx, dy), Compass);
    AllFour(r);
    r
  }

  /**
   The directions a drone tries, in order, when the pursued node is `(dx, dy)`
   away: the leading direction, then the other three as shuffled by `draws`.
   */
  function Candidates(dx: int, dy: int, draws: seq<nat>): (r: seq<Dir>)
    requires Shuffle.ValidDraws(3, draws)
    ensures |r| == 4 && Distinct(r) && HasAllDirs(r)
    ensures r[0] == Lead(dx, dy)
  {
    var u := Ranked(dx, dy);
    var tail := u[1..];
    var rest := Shuffle.FisherYates(tail, draws);
    TailFacts(u);
    MultisetMembers(tail, rest);
    var r := [u[0]] + rest;
    ConsDistinct(u[0], rest);
    assert r[1..] == rest;
    var p := Primary(dx, dy);
    assert |p| > 0 ==> u[0] == p[0];
    r
  }

  /** Splitting a duplicate-free list into head and tail. */
  lemma TailFacts(u: seq<Dir>)
    requires |u| > 0 && Distinct(u)
    ensures Distinct(u[1..]) && u[0] !in u[1..]
  {
    assert forall j :: 0 <= j < |u| - 1 ==> u[1..][j] == u[j + 1];
  }

  /** Lists with equal multisets have the same members. */
  lemma MultisetMembers(a: seq<Dir>, b: seq<Dir>)
    requires multiset(a) == multiset(b)
    ensures forall x :: x in a <==> x in b
  {
    forall x ensures x in a <==> x in b {
      assert x in a <==> x in multiset(a);
      assert x in b <==> x in multiset(b);
    }
  }

  /**
   The direction a drone tries first for a gap `(dx, dy)`: along the axis with
   the larger gap, the vertical one when the gaps are equal; up when there is
   no gap at all.
   */
  function Lead(dx: int, dy: int): Dir {
    if Abs(dx) > Abs(dy) then HorizontalToward(dx)
    else if dy != 0 then VerticalToward(dy)
    else Up
  }

  /** A signed gap shrinks when one unit is taken off toward zero. */
  lemma CloserOnAxis(d: int, e: int)
    requires d != 0
    requires e == (if d > 0 then d - 1 else d + 1)
    ensures e * e < d * d
  {
  }

  /** Squared distance in terms of the gaps from `a` to `b`. */
  lemma SqDistGaps(a: Cell, b: Cell, gx: int, gy: int)
    requires gx == b.x - a.x && gy == b.y - a.y
    ensures SqDist(a, b) == gx * gx + gy * gy
  {
    assert (a.x - b.x) * (a.x - b.x) == gx * gx;
    assert (a.y - b.y) * (a.y - b.y) == gy * gy;
  }

  /** The leading direction always brings a drone strictly nearer to a node it is not on. */
  lemma LeadApproaches(p: Cell, t: Cell)
    requires p != t
    ensures SqDist(Step(p, Lead(t.x - p.x, t.y - p.y)), t) < SqDist(p, t)
  {
    var dx, dy := t.x - p.x, t.y - p.y;
    var q := Step(p, Lead(dx, dy));
    var ex, ey := t.x - q.x, t.y - q.y;
    SqDistGaps(p, t, dx, dy);
    SqDistGaps(q, t, ex, ey);
    if Abs(dx) > Abs(dy) {
      assert ey == dy;
      CloserOnAxis(dx, ex);
    } else {
      assert ex == dx;
      CloserOnAxis(dy, ey);
    }
  }

  // ---- the movement filter ---------------------------------------------------

  /** Some drone other than drone `i`, from index `j` on, stands on `c`. */
  predicate OccupiedFrom(drones: seq<Drone>, i: nat, c: Cell, j: nat)
    decreases |drones| - j
  {
    j < |drones| && ((j != i && drones[j].pos == c) || OccupiedFrom(drones, i, c, j + 1))
  }

  /** Some drone other than drone `i` stands on `c`. */
  predicate OccupiedByOther(drones: seq<Drone>, i: nat, c: Cell) {
    OccupiedFrom(drones, i, c, 0)
  }

  /** The scan finds exactly the other drones standing on `c`. */
  lemma {:induction false} OccupiedFromIff(drones: seq<Drone>, i: nat, c: Cell, j: nat)
    ensures OccupiedFrom(drones, i, c, j) <==> exists k :: j <= k < |drones| && k != i && drones[k].pos == c
    decreases |drones| - j
  {
    if j < |drones| {
      OccupiedFromIff(drones, i, c, j + 1);
    }
  }

  /**
   Drone `i` may step onto `c`: not the cell it just left, inside the field,
   free of other drones, and neither a node nor next to one.
   */
  predicate Admissible(drones: seq<Drone>, i: nat, nodes: seq<Cell>, c: Cell)
    requires i < |drones|
  {
    && c != drones[i].prev
    && InGrid(c)
    && !OccupiedByOther(drones, i, c)
    && c !in nodes
    && !AdjacentToAny(nodes, c)
  }

  /** The index of the first candidate from `k` on whose step is admissible. */
  function FirstAdmissible(drones: seq<Drone>, i: nat, nodes: seq<Cell>, cands: seq<Dir>, k: nat): (r: Option<nat>)
    requires i < |drones| && k <= |cands|
    ensures r.Some? ==> k <= r.value < |cands|
    decreases |cands| - k
  {
    if k == |cands| then None
    else if Admissible(drones, i, nodes, Step(drones[i].pos, cands[k])) then Some(k)
    else FirstAdmissible(drones, i, nodes, cands, k + 1)
  }

  /** The scan stops at the first candidate from `k` on whose step passes the filter. */
  lemma {:induction false} FirstAdmissibleSpec(drones: seq<Drone>, i: nat, nodes: seq<Cell>, cands: seq<Dir>, k: nat)
    requires i < |drones| && k <= |cands|
    ensures var r := FirstAdmissible(drones, i, nodes, cands, k);
            && (r.Some? ==> Admissible(drones, i, nodes, Step(drones[i].pos, cands[r.value])))
            && (r.Some? ==> forall j :: k <= j < r.value ==> !Admissible(drones, i, nodes, Step(drones[i].pos, cands[j])))
            && (r.None? ==> forall j :: k <= j < |cands| ==> !Admissible(drones, i, nodes, Step(drones[i].pos, cands[j])))
    decreases |cands| - k
  {
    if k < |cands| && !Admissible(drones, i, nodes, Step(drones[i].pos, cands[k])) {
      FirstAdmissibleSpec(drones, i, nodes, cands, k + 1);
    }
  }

  /** The direction list a drone at `p` tries this tick (empty when no node is left). */
  function Plan(p: Cell, nodes: seq<Cell>, draws: seq<nat>): (r: seq<Dir>)
    requires Shuffle.ValidDraws(3, draws)
    ensures PlanFor(nodes, r)
    ensures |nodes| > 0 ==> |r| == 4
    ensures |nodes| > 0 ==>
              var t := nodes[Nearest(nodes, p).value];
              r[0] == Lead(t.x - p.x, t.y - p.y)
  {
    if |nodes| == 0 then []
    else
      var t := nodes[Nearest(nodes, p).value];
      Candidates(t.x - p.x, t.y - p.y, draws)
  }

  /**
   The direction drone `i` takes from its candidate list `plan`: the first
   whose step passes the filter; none when the list is empty or no step passes.
   */
  function Choice(drones: seq<Drone>, i: nat, nodes: seq<Cell>, plan: seq<Dir>): (r: Option<Dir>)
    requires i < |drones|
    ensures |plan| == 0 ==> r.None?
    ensures r.Some? ==> r.value in plan
  {
    if |plan| == 0 then None
    else
      match FirstAdmissible(drones, i, nodes, plan, 0)
      case None => None
      case Some(k) => Some(plan[k])
  }

  /**
   The choice is the first candidate whose step passes the filter, and there
   is no choice only when the list is empty or no direction at all passes.
   */
  lemma ChoiceSpec(drones: seq<Drone>, i: nat, nodes: seq<Cell>, plan: seq<Dir>)
    requires i < |drones|
    requires |plan| == 0 || HasAllDirs(plan)
    ensures var r := Choice(drones, i, nodes, plan);
            && (r.Some? ==>
                  && Admissible(drones, i, nodes, Step(drones[i].pos, r.value))
                  && exists k :: 0 <= k < |plan| && plan[k] == r.value
                       && forall j :: 0 <= j < k ==> !Admissible(drones, i, nodes, Step(drones[i].pos, plan[j])))
            && (r.None? ==> |plan| == 0 || forall d: Dir :: !Admissible(drones, i, nodes, Step(drones[i].pos, d)))
  {
    if |plan| > 0 {
      FirstAdmissibleSpec(drones, i, nodes, plan, 0);
      match FirstAdmissible(drones, i, nodes, plan, 0)
      case None =>
        NoneAdmissible(drones, i, nodes, plan);
      case Some(k) =>
    }
  }

  /** A usable candidate list: empty exactly when no node is left, else holding every direction. */
  predicate PlanFor(nodes: seq<Cell>, plan: seq<Dir>) {
    (|nodes| == 0 <==> |plan| == 0) && (|plan| > 0 ==> HasAllDirs(plan))
  }

  /** A drone after a tick: unchanged, or one cell on with its old cell remembered and its hits kept. */
  predicate StayOrStep(before: Drone, after: Drone) {
    after == before || (Neighbours(before.pos, after.pos) && after.prev == before.pos && after.hits == before.hits)
  }

  /**
   One drone's move along its candidate list `plan` (see `Plan`); every other
   drone is left as it is. `TickDroneFilter` states which steps are taken.
   */
  function TickDrone(drones: seq<Drone>, i: nat, nodes: seq<Cell>, plan: seq<Dir>): (r: seq<Drone>)
    requires i < |drones| && PlanFor(nodes, plan)
    ensures |r| == |drones|
    ensures forall j {:trigger r[j]} :: 0 <= j < |drones| && j != i ==> r[j] == drones[j]
    ensures StayOrStep(drones[i], r[i])
    ensures |nodes| == 0 ==> r == drones
  {
    match Choice(drones, i, nodes, plan)
    case None => drones
    case Some(dir) =>
      var d := drones[i];
      StepIsUnit(d.pos, dir);
      drones[i := Drone(Step(d.pos, dir), d.pos, d.hits)]
  }

  /**
   A drone that moves takes a step that passes the filter; a drone that
   stays had no node to pursue or no step that passes.
   */
  lemma TickDroneFilter(drones: seq<Drone>, i: nat, nodes: seq<Cell>, plan: seq<Dir>)
    requires i < |drones| && PlanFor(nodes, plan)
    ensures var r := TickDrone(drones, i, nodes, plan);
            && (r[i].pos != drones[i].pos ==> Admissible(drones, i, nodes, r[i].pos))
            && (r[i].pos == drones[i].pos ==>
                  |nodes| == 0 || forall d: Dir :: !Admissible(drones, i, nodes, Step(drones[i].pos, d)))
  {
    var c := Choice(drones, i, nodes, plan);
    ChoiceSpec(drones, i, nodes, plan);
    if c.Some? {
      StepIsUnit(drones[i].pos, c.value);
    }
  }

  /** When every direction of a complete plan fails the filter, every direction does. */
  lemma NoneAdmissible(drones: seq<Drone>, i: nat, nodes: seq<Cell>, plan: seq<Dir>)
    requires i < |drones| && HasAllDirs(plan)
    requires forall j :: 0 <= j < |plan| ==> !Admissible(drones, i, nodes, Step(drones[i].pos, plan[j]))
    ensures forall d: Dir :: !Admissible(drones, i, nodes, Step(drones[i].pos, d))
  {
    forall d: Dir ensures !Admissible(drones, i, nodes, Step(drones[i].pos, d)) {
      assert d in plan by {
        match d
        case Up =>
        case Down =>
        case Left =>
        case Right =>
      }
      var j :| 0 <= j < |plan| && plan[j] == d;
    }
  }

  // ---- the whole tick --------------------------------------------------------

  /**
   Drones stand on distinct cells inside the field, none on a node or next
   to one.
   */
  predicate SafeDrones(nodes: seq<Cell>, drones: seq<Drone>) {
    && (forall k :: 0 <= k < |drones| ==> InGrid(drones[k].pos))
    && (forall k :: 0 <= k < |drones| ==> drones[k].pos !in nodes && !AdjacentToAny(nodes, drones[k].pos))
    && (forall a, b :: 0 <= a < b < |drones| ==> drones[a].pos != drones[b].pos)
  }

  lemma TickKeepsSafe(drones: seq<Drone>, i: nat, nodes: seq<Cell>, plan: seq<Dir>)
    requires i < |drones| && PlanFor(nodes, plan)
    requires SafeDrones(nodes, drones)
    ensures SafeDrones(nodes, TickDrone(drones, i, nodes, plan))
  {
    var r := TickDrone(drones, i, nodes, plan);
    TickDroneFilter(drones, i, nodes, plan);
    if r[i].pos != drones[i].pos {
      assert Admissible(drones, i, nodes, r[i].pos);
      forall a, b | 0 <= a < b < |r| ensures r[a].pos != r[b].pos {
        if a == i {
          OccupiedFromIff(drones, i, r[i].pos, 0);
          assert drones[b].pos == r[b].pos;
        } else if b == i {
          OccupiedFromIff(drones, i, r[i].pos, 0);
          assert drones[a].pos == r[a].pos;
        }
      }
    }
  }

  predicate ValidTickDraws(n: nat, draws: seq<seq<nat>>) {
    |draws| == n && forall k :: 0 <= k < n ==> Shuffle.ValidDraws(3, draws[k])
  }

  /**
   Drones `i..` move in order; each plans from its cell at its turn and sees
   the moves of the drones before it.
   */
  function MoveFrom(drones: seq<Drone>, i: nat, nodes: seq<Cell>, draws: seq<seq<nat>>): (r: seq<Drone>)
    requires i <= |drones| && ValidTickDraws(|drones|, draws)
    ensures |r| == |drones|
    ensures forall j :: 0 <= j < i ==> r[j] == drones[j]
    decreases |drones| - i
  {
    if i == |drones| then drones
    else MoveFrom(TickDrone(drones, i, nodes, Plan(drones[i].pos, nodes, draws[i])), i + 1, nodes, draws)
  }

  /** Every drone's candidate list, planned from the cells at the start of the tick. */
  function Plans(drones: seq<Drone>, nodes: seq<Cell>, draws: seq<seq<nat>>): (r: seq<seq<Dir>>)
    requires ValidTickDraws(|drones|, draws)
    ensures |r| == |drones|
    ensures forall k :: 0 <= k < |r| ==> PlanFor(nodes, r[k])
  {
    seq(|drones|, k requires 0 <= k < |drones| => Plan(drones[k].pos, nodes, draws[k]))
  }

  predicate ValidPlans(n: nat, nodes: seq<Cell>, plans: seq<seq<Dir>>) {
    |plans| == n && forall k :: 0 <= k < n ==> PlanFor(nodes, plans[k])
  }

  /** Drones `i..` move in order along the given candidate lists. */
  function MoveAlong(drones: seq<Drone>, i: nat, nodes: seq<Cell>, plans: seq<seq<Dir>>): (r: seq<Drone>)
    requires i <= |drones| && ValidPlans(|drones|, nodes, plans)
    ensures |r| == |drones|
    decreases |drones| - i
  {
    if i == |drones| then drones
    else MoveAlong(TickDrone(drones, i, nodes, plans[i]), i + 1, nodes, plans)
  }

  /**
   A drone's turn comes before any move of its own, so it plans from its cell
   at the start of the tick: the in-order tick equals moving along the plans
   made up front.
   */
  lemma {:induction false} MoveFromIsMoveAlong(start: seq<Drone>, drones: seq<Drone>, i: nat, nodes: seq<Cell>, draws: seq<seq<nat>>)
    requires i <= |drones| == |start| && ValidTickDraws(|drones|, draws)
    requires forall k :: i <= k < |drones| ==> drones[k].pos == start[k].pos
    ensures MoveFrom(drones, i, nodes, draws) == MoveAlong(drones, i, nodes, Plans(start, nodes, draws))
    decreases |drones| - i
  {
    if i < |drones| {
      var plans := Plans(start, nodes, draws);
      var plan := Plan(drones[i].pos, nodes, draws[i]);
      assert plans[i] == plan;
      var next := TickDrone(drones, i, nodes, plan);
      assert MoveFrom(drones, i, nodes, draws) == MoveFrom(next, i + 1, nodes, draws);
      assert MoveAlong(drones, i, nodes, plans) == MoveAlong(next, i + 1, nodes, plans);
      MoveFromIsMoveAlong(start, next, i + 1, nodes, draws);
    }
  }

  /** Over a whole tick each drone either stays or takes one step; drones before `i` have had their turn. */
  lemma {:induction false} MoveAlongSteps(drones: seq<Drone>, i: nat, nodes: seq<Cell>, plans: seq<seq<Dir>>)
    requires i <= |drones| && ValidPlans(|drones|, nodes, plans)
    ensures var r := MoveAlong(drones, i, nodes, plans);
            && (forall k :: 0 <= k < i ==> r[k] == drones[k])
            && (forall k :: i <= k < |r| ==> StayOrStep(drones[k], r[k]))
    decreases |drones| - i
  {
    if i < |drones| {
      var next := TickDrone(drones, i, nodes, plans[i]);
      MoveAlongSteps(next, i + 1, nodes, plans);
      var r := MoveAlong(next, i + 1, nodes, plans);
      assert MoveAlong(drones, i, nodes, plans) == r;
      assert StayOrStep(drones[i], next[i]);
      forall k | 0 <= k < i ensures r[k] == drones[k] {
        assert next[k] == drones[k];
      }
      forall k | i < k < |r| ensures StayOrStep(drones[k], r[k]) {
        assert next[k] == drones[k];
      }
    }
  }

  /** With no node left, no drone moves. */
  lemma {:induction false} MoveAlongIdle(drones: seq<Drone>, i: nat, nodes: seq<Cell>, plans: seq<seq<Dir>>)
    requires i <= |drones| && ValidPlans(|drones|, nodes, plans)
    requires |nodes| == 0
    ensures MoveAlong(drones, i, nodes, plans) == drones
    decreases |drones| - i
  {
    if i < |drones| {
      MoveAlongIdle(drones, i + 1, nodes, plans);
    }
  }

  /** A tick keeps every drone inside the field, on its own cell, and off and away from the nodes. */
  lemma {:induction false} MoveAlongSafe(drones: seq<Drone>, i: nat, nodes: seq<Cell>, plans: seq<seq<Dir>>)
    requires i <= |drones| && ValidPlans(|drones|, nodes, plans)
    requires SafeDrones(nodes, drones)
    ensures SafeDrones(nodes, MoveAlong(drones, i, nodes, plans))
    decreases |drones| - i
  {
    if i < |drones| {
      var next := TickDrone(drones, i, nodes, plans[i]);
      TickKeepsSafe(drones, i, nodes, plans[i]);
      MoveAlongSafe(next, i + 1, nodes, plans);
      assert MoveAlong(drones, i, nodes, plans) == MoveAlong(next, i + 1, nodes, plans);
    }
  }


  /** The drones after drones `0..k-1` have had their turns along `plans`. */
  function Turns(drones: seq<Drone>, nodes: seq<Cell>, plans: seq<seq<Dir>>, k: nat): (r: seq<Drone>)
    requires k <= |drones| && ValidPlans(|drones|, nodes, plans)
    ensures |r| == |drones|
    ensures forall j :: k <= j < |r| ==> r[j] == drones[j]
    decreases k
  {
    if k == 0 then drones
    else TickDrone(Turns(drones, nodes, plans, k - 1), k - 1, nodes, plans[k - 1])
  }

  /** A tick is the first `k` turns followed by the rest. */
  lemma {:induction false} TurnsThenRest(drones: seq<Drone>, nodes: seq<Cell>, plans: seq<seq<Dir>>, k: nat)
    requires k <= |drones| && ValidPlans(|drones|, nodes, plans)
    ensures MoveAlong(drones, 0, nodes, plans) == MoveAlong(Turns(drones, nodes, plans, k), k, nodes, plans)
    decreases k
  {
    if k > 0 {
      TurnsThenRest(drones, nodes, plans, k - 1);
      var mid := Turns(drones, nodes, plans, k - 1);
      assert MoveAlong(mid, k - 1, nodes, plans) == MoveAlong(TickDrone(mid, k - 1, nodes, plans[k - 1]), k, nodes, plans);
    }
  }

  /** Drone `k` ends the tick where its own turn left it, given the drones as the earlier turns left them. */
  lemma TurnOutcome(drones: seq<Drone>, nodes: seq<Cell>, plans: seq<seq<Dir>>, k: nat)
    requires k < |drones| && ValidPlans(|drones|, nodes, plans)
    ensures MoveAlong(drones, 0, nodes, plans)[k] == TickDrone(Turns(drones, nodes, plans, k), k, nodes, plans[k])[k]
  {
    var mid := Turns(drones, nodes, plans, k);
    var next := TickDrone(mid, k, nodes, plans[k]);
    TurnsThenRest(drones, nodes, plans, k);
    assert MoveAlong(mid, k, nodes, plans) == MoveAlong(next, k + 1, nodes, plans);
    MoveAlongSteps(next, k + 1, nodes, plans);
  }

  /**
   In the in-order tick, drone `k` takes its turn from its own start-of-tick
   cell, planning toward its nearest node, among the drones as the turns
   before it left them.
   */
  lemma MoveFromTurn(drones: seq<Drone>, nodes: seq<Cell>, draws: seq<seq<nat>>, k: nat)
    requires ValidTickDraws(|drones|, draws) && k < |drones|
    ensures var mid := Turns(drones, nodes, Plans(drones, nodes, draws), k);
            && mid[k] == drones[k]
            && MoveFrom(drones, 0, nodes, draws)[k] == TickDrone(mid, k, nodes, Plan(drones[k].pos, nodes, draws[k]))[k]
  {
    var plans := Plans(drones, nodes, draws);
    MoveFromIsMoveAlong(drones, drones, 0, nodes, draws);
    TurnOutcome(drones, nodes, plans, k);
    assert plans[k] == Plan(drones[k].pos, nodes, draws[k]);
  }

  /**
   Over the in-order tick, a drone that moves steps to a cell that passes the
   filter at its turn, and so never back to the cell it left last time; a
   drone that stays had no node to pursue or no direction that passes.
   */
  lemma MoveFromFilter(drones: seq<Drone>, nodes: seq<Cell>, draws: seq<seq<nat>>, k: nat)
    requires ValidTickDraws(|drones|, draws) && k < |drones|
    ensures var r := MoveFrom(drones, 0, nodes, draws);
            var mid := Turns(drones, nodes, Plans(drones, nodes, draws), k);
            && (r[k].pos != drones[k].pos ==> Admissible(mid, k, nodes, r[k].pos) && r[k].pos != drones[k].prev)
            && (r[k].pos == drones[k].pos ==>
                  |nodes| == 0 || forall d: Dir :: !Admissible(mid, k, nodes, Step(drones[k].pos, d)))
  {
    var mid := Turns(drones, nodes, Plans(drones, nodes, draws), k);
    var plan := Plan(drones[k].pos, nodes, draws[k]);
    MoveFromTurn(drones, nodes, draws, k);
    TickDroneFilter(mid, k, nodes, plan);
  }
  /** Over the in-order tick each drone stays or takes one step. */
  lemma MoveFromSteps(drones: seq<Drone>, nodes: seq<Cell>, draws: seq<seq<nat>>)
    requires ValidTickDraws(|drones|, draws)
    ensures var r := MoveFrom(drones, 0, nodes, draws);
            forall k :: 0 <= k < |r| ==> StayOrStep(drones[k], r[k])
  {
    var plans := Plans(drones, nodes, draws);
    MoveFromIsMoveAlong(drones, drones, 0, nodes, draws);
    MoveAlongSteps(drones, 0, nodes, plans);
  }

  /** With no node left the in-order tick moves nobody. */
  lemma MoveFromIdle(drones: seq<Drone>, nodes: seq<Cell>, draws: seq<seq<nat>>)
    requires ValidTickDraws(|drones|, draws)
    ensures |nodes| == 0 ==> MoveFrom(drones, 0, nodes, draws) == drones
  {
    if |nodes| == 0 {
      var plans := Plans(drones, nodes, draws);
      MoveFromIsMoveAlong(drones, drones, 0, nodes, draws);
      MoveAlongIdle(drones, 0, nodes, plans);
    }
  }

  /** The in-order tick keeps the drones safe. */
  lemma MoveFromSafe(drones: seq<Drone>, nodes: seq<Cell>, draws: seq<seq<nat>>)
    requires ValidTickDraws(|drones|, draws)
    ensures SafeDrones(nodes, drones) ==> SafeDrones(nodes, MoveFrom(drones, 0, nodes, draws))
  {
    if SafeDrones(nodes, drones) {
      var plans := Plans(drones, nodes, draws);
      MoveFromIsMoveAlong(drones, drones, 0, nodes, draws);
      MoveAlongSafe(drones, 0, nodes, plans);
    }
  }

  /** `moveDrones`: one tick for every drone, only while playing. */
  function MoveDrones(g: Game, draws: seq<seq<nat>>): (r: Game)
    requires ValidTickDraws(|g.drones|, draws)
    ensures g.phase != Playing || |g.nodes| == 0 ==> r == g
    ensures r == g.(drones := r.drones)
    ensures |r.drones| == |g.drones|
    ensures forall k :: 0 <= k < |r.drones| ==> StayOrStep(g.drones[k], r.drones[k])
    ensures SafeDrones(g.nodes, g.drones) ==> SafeDrones(r.nodes, r.drones)
  {
    if g.phase != Playing then g
    else
      MoveFromSteps(g.drones, g.nodes, draws);
      MoveFromIdle(g.drones, g.nodes, draws);
      MoveFromSafe(g.drones, g.nodes, draws);
      g.(drones := MoveFrom(g.drones, 0, g.nodes, draws))
  }

  /**
   Each drone's part in `moveDrones`: it plays its own turn among the drones
   as the earlier turns left them; if it moves, the step passes the filter
   at that turn and does not return to the cell it left last time; if it
   stays, no direction passed.
   */
  lemma MoveDronesTurn(g: Game, draws: seq<seq<nat>>, k: nat)
    requires ValidTickDraws(|g.drones|, draws) && g.phase == Playing && k < |g.drones|
    ensures var r := MoveDrones(g, draws).drones;
            var mid := Turns(g.drones, g.nodes, Plans(g.drones, g.nodes, draws), k);
            && mid[k] == g.drones[k]
            && r[k] == TickDrone(mid, k, g.nodes, Plan(g.drones[k].pos, g.nodes, draws[k]))[k]
            && (r[k].pos != g.drones[k].pos ==> Admissible(mid, k, g.nodes, r[k].pos) && r[k].pos != g.drones[k].prev)
            && (r[k].pos == g.drones[k].pos ==>
                  |g.nodes| == 0 || forall d: Dir :: !Admissible(mid, k, g.nodes, Step(g.drones[k].pos, d)))
  {
    assert MoveDrones(g, draws).drones == MoveFrom(g.drones, 0, g.nodes, draws);
    MoveFromTurn(g.drones, g.nodes, draws, k);
    MoveFromFilter(g.drones, g.nodes, draws, k);
  }
}

=== FILE: runner.dfy ===
/**
 The runner's step (`moveRunner`): of the held directions the one with the
 highest priority wins (left, then right, then up, then down); it becomes
 the facing even when the step is refused, and the runner moves one cell
 when that stays on the field.
 */
module Runner {
  import opened Wrappers
  import opened Grid
  import opened State

  /** Priority of a held direction; lower wins. */
  function Rank(d: Dir): nat {
    match d
    case Left => 0
    case Right => 1
    case Up => 2
    case Down => 3
  }

  /** The direction acted on when the keys in `held` are down. */
  function Chosen(held: set<Dir>): (r: Option<Dir>)
    ensures r.None? <==> held == {}
    ensures r.Some? ==> r.value in held && forall d :: d in held ==> Rank(r.value) <= Rank(d)
  {
    if Left in held then Some(Left)
    else if Right in held then Some(Right)
    else if Up in held then Some(Up)
    else if Down in held then Some(Down)
    else
      assert forall d: Dir :: d !in held by {
        forall d: Dir ensures d !in held {
          assert d.Left? || d.Right? || d.Up? || d.Down?;
        }
      }
      assert held == {};
      None
  }

  /** One movement tick with the keys in `held` down. */
  function MoveRunner(g: Game, held: set<Dir>): (r: Game)
    ensures g.phase != Playing || held == {} ==> r == g
    ensures r == g.(runner := r.runner, lastDir := r.lastDir)
    ensures g.phase == Playing && held != {} ==>
              r.lastDir in held && forall d :: d in held ==> Rank(r.lastDir) <= Rank(d)
    ensures r.runner == g.runner || (Neighbours(g.runner, r.runner) && r.runner == Step(g.runner, r.lastDir))
    ensures InGrid(g.runner) ==> InGrid(r.runner)
    ensures g.phase == Playing && held != {} && InGrid(Step(g.runner, r.lastDir)) ==> r.runner == Step(g.runner, r.lastDir)
  {
    if g.phase != Playing then g
    else match Chosen(held)
      case None => g
      case Some(d) =>
        var next := Step(g.runner, d);
        StepIsUnit(g.runner, d);
        if InGrid(next) then g.(runner := next, lastDir := d)
        else g.(lastDir := d)
  }

  /** `k` ticks holding only the left key. */
  function HoldLeft(g: Game, k: nat): (r: Game)
    ensures r.phase == g.phase && r.runner.y == g.runner.y
    decreases k
  {
    if k == 0 then g else HoldLeft(MoveRunner(g, {Left}), k - 1)
  }

  /**
   Holding left while playing walks the runner to the left edge and stops
   it there: after `k` ticks it stands `k` cells further left, or on column 0.
   */
  lemma {:induction false} LeftClampsAtEdge(g: Game, k: nat)
    requires g.phase == Playing && InGrid(g.runner)
    ensures HoldLeft(g, k).runner == Cell(Max(0, g.runner.x - k), g.runner.y)
    ensures k > 0 ==> HoldLeft(g, k).lastDir == Left
    decreases k
  {
    if k > 0 {
      var g1 := MoveRunner(g, {Left});
      assert g1.runner == Cell(Max(0, g.runner.x - 1), g.runner.y);
      if k > 1 {
        LeftClampsAtEdge(g1, k - 1);
      } else {
        assert HoldLeft(g, 1) == g1;
      }
    }
  }
}

=== FILE: sequences.dfy ===
/** Sequence helpers shared by the game modules. */
module Sequences {

  /** No element occurs twice. */
  predicate Distinct<T(==)>(s: seq<T>) {
    forall i, j :: 0 <= i < j < |s| ==> s[i] != s[j]
  }

  /** `s` without the element at index `i`; the others keep their order. */
  function RemoveAt<T>(s: seq<T>, i: nat): (r: seq<T>)
    requires i < |s|
    ensures |r| == |s| - 1
    ensures forall j :: 0 <= j < i ==> r[j] == s[j]
    ensures forall j :: i <= j < |r| ==> r[j] == s[j + 1]
    ensures multiset(r) == multiset(s) - multiset{s[i]}
  {
    assert s == s[..i] + [s[i]] + s[i + 1..];
    s[..i] + s[i + 1..]
  }

  /** Removing an element keeps the others distinct and only forgets that element. */
  lemma RemoveAtKeeps<T>(s: seq<T>, i: nat)
    requires i < |s|
    ensures Distinct(s) ==> Distinct(RemoveAt(s, i))
    ensures forall x :: x in RemoveAt(s, i) ==> x in s
  {
    var r := RemoveAt(s, i);
    forall x | x in r ensures x in s {
      var j :| 0 <= j < |r| && r[j] == x;
      if j < i { assert s[j] == x; } else { assert s[j + 1] == x; }
    }
  }

  /** Prepending a new element keeps a sequence duplicate-free. */
  lemma ConsDistinct<T>(x: T, s: seq<T>)
    requires Distinct(s) && x !in s
    ensures Distinct([x] + s)
  {
    var r := [x] + s;
    forall i, j | 0 <= i < j < |r| ensures r[i] != r[j] {
      assert r[j] == s[j - 1];
      if i > 0 {
        assert r[i] == s[i - 1];
      }
    }
  }

  /** A duplicate-free sequence has as many elements as its set of elements. */
  lemma {:induction false} DistinctCard<T>(s: seq<T>)
    requires Distinct(s)
    ensures |set x | x in s| == |s|
  {
    if |s| > 0 {
      var tail := s[1..];
      assert Distinct(tail) by {
        forall i, j | 0 <= i < j < |tail| ensures tail[i] != tail[j] {
          assert tail[i] == s[i + 1] && tail[j] == s[j + 1];
        }
      }
      DistinctCard(tail);
      assert s[0] !in tail by {
        forall j | 0 <= j < |tail| ensures tail[j] != s[0] {
          assert tail[j] == s[j + 1];
        }
      }
      assert (set x | x in s) == {s[0]} + (set x | x in tail) by {
        assert s == [s[0]] + tail;
      }
    }
  }
}

=== FILE: session.dfy ===
/**
 The scene's life cycle: the level menu, building a level, pausing, the
 victory and game-over screens, and every input the game reacts to as one
 event applied to the session record.
 */
module Session {
  import opened Wrappers
  import opened Grid
  import opened Sequences
  import opened State
  import opened Levels
  import opened Spawn
  import opened Pursuit
  import opened Runner
  import opened Combat

  // ---- state transitions --------------------------------------------------

  /** The P key: swaps playing and paused, and is ignored in every other state. */
  function PauseKey(g: Game): (r: Game)
    ensures r == g.(phase := r.phase)
    ensures g.phase == Playing ==> r.phase == Paused
    ensures g.phase == Paused ==> r.phase == Playing
    ensures g.phase != Playing && g.phase != Paused ==> r == g
  {
    match g.phase
    case Playing => g.(phase := Paused)
    case Paused => g.(phase := Playing)
    case _ => g
  }

  /** Pressing P twice gives back the state before. */
  lemma PauseTwice(g: Game)
    ensures PauseKey(PauseKey(g)) == g
  {
  }

  /**
   `restartGame`: back to the level menu with the counter cleared. The scene
   restart discards the level's nodes, drones and bullets; the level,
   facing and drone counter are kept.
   */
  function Restart(g: Game): (r: Game)
    ensures r.phase == Menu && r.collected == 0
    ensures r.nodes == [] && r.drones == [] && r.bullets == []
    ensures r.level == g.level && r.total == g.total && r.runner == g.runner
    ensures r.lastDir == g.lastDir && r.dronesRemaining == g.dronesRemaining
  {
    g.(phase := Menu, collected := 0, nodes := [], drones := [], bullets := [])
  }

  /** Restarting twice is restarting once. */
  lemma RestartIdempotent(g: Game)
    ensures Restart(Restart(g)) == Restart(g)
  {
  }

  /** A level button on the menu: chooses the level and starts play. */
  function SelectLevel(g: Game, i: int): (r: Game)
    requires g.phase == Menu && 1 <= i <= MaxLevel
    ensures r.phase == Playing && r.level == i
    ensures r == g.(phase := r.phase, level := r.level)
  {
    g.(phase := Playing, level := i)
  }

  /** `proceedToNextLevel`: the next level (clamped at the last), counter cleared, play resumes. */
  function ProceedToNextLevel(g: Game): (r: Game)
    ensures r.phase == Playing && r.collected == 0
    ensures r.level == (if g.level + 1 < MaxLevel then g.level + 1 else MaxLevel)
    ensures r == g.(phase := r.phase, level := r.level, collected := r.collected)
  {
    g.(phase := Playing, level := Advance(g.level), collected := 0)
  }

  // ---- building a level ---------------------------------------------------

  /** Fresh drones on `cells`: no hits yet, and the last cell left is the spawn cell. */
  function Spawned(cells: seq<Cell>): (r: seq<Drone>)
    ensures |r| == |cells|
    ensures forall k :: 0 <= k < |r| ==> r[k].pos == cells[k] && r[k].prev == cells[k] && r[k].hits == 0
  {
    seq(|cells|, k requires 0 <= k < |cells| => Drone(cells[k], cells[k], 0))
  }

  lemma SpawnedSafe(nodes: seq<Cell>, cells: seq<Cell>)
    requires DronesApart(nodes, cells) && AllInGrid(cells)
    ensures SafeDrones(nodes, Spawned(cells))
  {
    var ds := Spawned(cells);
    forall k | 0 <= k < |ds| ensures InGrid(ds[k].pos) && DroneClear(nodes, ds[k].pos) {
      assert cells[k] in cells;
    }
  }

  /**
   `create` outside the menu: the level's configuration, the runner on the
   centre cell, the nodes and then the drones placed from the random cells
   `draws`, and no bullets. None when `draws` runs out before every node
   and drone has a cell. In the menu it builds nothing.
   */
  function Create(g: Game, draws: seq<Cell>): (r: Option<Game>)
    requires AllInGrid(draws)
    ensures g.phase == Menu ==> r == Some(g)
    ensures |draws| < ConfigFor(g.level).dataNodes + ConfigFor(g.level).droneCount && g.phase != Menu ==> r.None?
    ensures r.Some? && g.phase != Menu ==>
              var c := ConfigFor(g.level);
              var h := r.value;
              && h == g.(total := h.total, runner := h.runner, nodes := h.nodes, drones := h.drones,
                         bullets := h.bullets, dronesRemaining := h.dronesRemaining)
              && h.total == c.dataNodes && |h.nodes| == c.dataNodes && |h.drones| == c.droneCount
              && h.runner == Centre && h.bullets == [] && h.dronesRemaining == |h.drones|
              && AllInGrid(h.nodes) && NodesApart(h.nodes)
              && SafeDrones(h.nodes, h.drones)
              && (forall k :: 0 <= k < |h.drones| ==> h.drones[k].hits == 0 && h.drones[k].prev == h.drones[k].pos)
  {
    if g.phase == Menu then Some(g)
    else
      var c := ConfigFor(g.level);
      match PlaceNodes(c.dataNodes, [], draws)
      case None => None
      case Some(np) =>
        match PlaceDrones(c.droneCount, np.cells, [], np.rest)
        case None =>
          None
        case Some(dp) =>
          SuffixInGrid(np.rest, draws);
          SpawnedSafe(np.cells, dp.cells);
          Some(Populate(g, c.dataNodes, np.cells, dp.cells))
  }

  /**
   A freshly built level keeps the drone spawn rule: every drone is off and
   away from every node, and at least five columns and five rows away from
   the runner's start cell, where the runner stands.
   */
  lemma CreateDronesClear(g: Game, draws: seq<Cell>)
    requires AllInGrid(draws) && g.phase != Menu
    ensures Create(g, draws).Some? ==>
              var h := Create(g, draws).value;
              && h.runner == Centre
              && forall k :: 0 <= k < |h.drones| ==>
                   && DroneClear(h.nodes, h.drones[k].pos)
                   && Abs(h.drones[k].pos.x - h.runner.x) >= 5 && Abs(h.drones[k].pos.y - h.runner.y) >= 5
  {
    var c := ConfigFor(g.level);
    match PlaceNodes(c.dataNodes, [], draws)
    case None =>
    case Some(np) =>
      match PlaceDrones(c.droneCount, np.cells, [], np.rest)
      case None =>
      case Some(dp) =>
        var h := Create(g, draws).value;
        assert h == Populate(g, c.dataNodes, np.cells, dp.cells);
        forall k | 0 <= k < |h.drones|
          ensures DroneClear(h.nodes, h.drones[k].pos)
        {
          assert h.drones[k].pos == dp.cells[k] && dp.cells[k] in dp.cells;
        }
  }

  /**
   Draws `a` followed by `b` that leave room for level `level`: `a` holds
   enough distinct cells a node may take, and `b` enough distinct cells a
   drone may take next to any cell of `a`.
   */
  predicate Ample(level: int, a: seq<Cell>, b: seq<Cell>) {
    && ConfigFor(level).dataNodes <= |NodeChoices([], a)|
    && ConfigFor(level).droneCount <= |DroneChoices(a, [], b)|
  }

  /** With ample draws a level always gets built, as the source's redraw loops always finish. */
  lemma CreateSucceeds(g: Game, a: seq<Cell>, b: seq<Cell>)
    requires AllInGrid(a + b) && Ample(g.level, a, b)
    ensures Create(g, a + b).Some?
  {
    if g.phase != Menu {
      var c := ConfigFor(g.level);
      PlaceNodesSucceeds(c.dataNodes, [], a, b);
      var np := PlaceNodes(c.dataNodes, [], a + b).value;
      assert forall x :: x in b ==> x in np.rest by {
        forall x | x in b ensures x in np.rest {
          var j :| 0 <= j < |b| && b[j] == x;
          assert (a + b)[|a| + j] == x;
          assert np.rest[|np.rest| - |b| + j] == x;
        }
      }
      DroneChoicesWiden(np.cells, a, b, np.rest);
      SubsetCard(DroneChoices(a, [], b), DroneChoices(np.cells, [], np.rest));
      PlaceDronesSucceeds(c.droneCount, np.cells, [], np.rest, []);
      assert np.rest + [] == np.rest;
    }
  }

  /** `CreateSucceeds` for draws given whole, split at some point. */
  lemma SplitSucceeds(g: Game, draws: seq<Cell>)
    requires AllInGrid(draws)
    ensures (exists n :: 0 <= n <= |draws| && Ample(g.level, draws[..n], draws[n..])) ==> Create(g, draws).Some?
  {
    if exists n :: 0 <= n <= |draws| && Ample(g.level, draws[..n], draws[n..]) {
      var n :| 0 <= n <= |draws| && Ample(g.level, draws[..n], draws[n..]);
      assert draws[..n] + draws[n..] == draws;
      CreateSucceeds(g, draws[..n], draws[n..]);
    }
  }

  lemma SuffixInGrid(rest: seq<Cell>, draws: seq<Cell>)
    requires SuffixOf(rest, draws) && AllInGrid(draws)
    ensures AllInGrid(rest)
  {
    forall x | x in rest ensures InGrid(x) {
      var j :| 0 <= j < |rest| && rest[j] == x;
      assert draws[|draws| - |rest| + j] == x;
    }
  }

  /** The level's entities installed in the session record. */
  function Populate(g: Game, total: nat, nodes: seq<Cell>, droneCells: seq<Cell>): (h: Game)
    ensures h == g.(total := h.total, runner := h.runner, nodes := h.nodes, drones := h.drones,
                    bullets := h.bullets, dronesRemaining := h.dronesRemaining)
    ensures h.total == total && h.nodes == nodes && h.runner == Centre && h.bullets == []
    ensures h.drones == Spawned(droneCells) && h.dronesRemaining == |h.drones|
  {
    g.(total := total, runner := Centre, nodes := nodes, drones := Spawned(droneCells),
       bullets := [], dronesRemaining := |droneCells|)
  }

  /** A level button: the chosen level is built and played. */
  function StartLevel(g: Game, i: int, draws: seq<Cell>): (r: Option<Game>)
    requires g.phase == Menu && 1 <= i <= MaxLevel && AllInGrid(draws)
    ensures r.Some? ==> r.value.phase == Playing && r.value.level == i && r.value.collected == g.collected
    ensures r.Some? ==> |r.value.nodes| == ConfigFor(i).dataNodes && |r.value.drones| == ConfigFor(i).droneCount
    ensures (exists n :: 0 <= n <= |draws| && Ample(i, draws[..n], draws[n..])) ==> r.Some?
  {
    SplitSucceeds(SelectLevel(g, i), draws);
    Create(SelectLevel(g, i), draws)
  }

  /** The next-level button or key: the following level is built and played from an empty counter. */
  function NextLevel(g: Game, draws: seq<Cell>): (r: Option<Game>)
    requires AllInGrid(draws)
    ensures r.Some? ==> r.value.phase == Playing && r.value.collected == 0 && r.value.level == Advance(g.level)
    ensures r.Some? ==> |r.value.nodes| == ConfigFor(Advance(g.level)).dataNodes
    ensures (exists n :: 0 <= n <= |draws| && Ample(Advance(g.level), draws[..n], draws[n..])) ==> r.Some?
  {
    SplitSucceeds(ProceedToNextLevel(g), draws);
    Create(ProceedToNextLevel(g), draws)
  }

  /** Space on the victory screen: the next level, or the menu after the last level. */
  function VictorySpace(g: Game, draws: seq<Cell>): (r: Option<Game>)
    requires AllInGrid(draws)
    ensures g.phase != Victory ==> r == Some(g)
    ensures g.phase == Victory && g.level >= MaxLevel ==> r == Some(Restart(g))
    ensures g.phase == Victory && g.level < MaxLevel && r.Some? ==>
              r.value.phase == Playing && r.value.level == g.level + 1 && r.value.collected == 0
    ensures (exists n :: 0 <= n <= |draws| && Ample(Advance(g.level), draws[..n], draws[n..])) ==> r.Some?
  {
    if g.phase != Victory then Some(g)
    else if g.level < MaxLevel then NextLevel(g, draws)
    else Some(Restart(g))
  }

  /**
   Space on the game-over screen, as the screen's label promises: back to the
   menu. `SourceLabels` shows why the listener as written never fires.
   */
  function GameOverSpace(g: Game): (r: Game)
    ensures g.phase == GameOver ==> r == Restart(g)
    ensures g.phase != GameOver ==> r == g
  {
    if g.phase == GameOver then Restart(g) else g
  }

  // ---- events -------------------------------------------------------------

  /**
   Everything the game reacts to. Contacts are reported by index and mean
   that the two objects share a cell; timers and frames carry their random
   draws or the bullets whose step is due.
   */
  datatype Event =
    | LevelButton(choice: int, cells: seq<Cell>)
    | PauseKeyPress
    | Keys(held: set<Dir>)
    | NodeOverlap(node: nat)
    | DroneOverlap(drone: nat)
    | DroneTimer(shuffles: seq<seq<nat>>)
    | FirePress
    | Frame(due: seq<bool>)
    | BulletOverlap(bullet: nat, target: nat)
    | VictorySpaceKey(nextCells: seq<Cell>)
    | NextLevelClick(clickCells: seq<Cell>)
    | RestartClick
    | GameOverSpaceKey

  /**
   The session after event `e`; None when the event cannot happen in `g`
   (a button that is not on screen, a contact between objects on different
   cells, draws of the wrong shape) or when the placement draws run out.
   */
  function Apply(g: Game, e: Event): (r: Option<Game>)
    // the level buttons exist only in the menu, and start play at the chosen level
    ensures e.LevelButton? && r.Some? ==>
              && g.phase == Menu && 1 <= e.choice <= MaxLevel
              && r.value.phase == Playing && r.value.level == e.choice
    // the next-level button exists only on the victory screen below the last level
    ensures e.NextLevelClick? && r.Some? ==>
              && g.phase == Victory && g.level < MaxLevel
              && r.value.phase == Playing && r.value.level == g.level + 1
    // the restart button exists only on the victory and game-over screens
    ensures e.RestartClick? ==> (r.Some? <==> g.phase == Victory || g.phase == GameOver)
    ensures e.RestartClick? && r.Some? ==> r.value == Restart(g)
    // contacts are between objects on the same cell
    ensures e.DroneOverlap? ==>
              (r.Some? <==> e.drone < |g.drones| && g.drones[e.drone].pos == g.runner)
    ensures e.BulletOverlap? ==>
              (r.Some? <==> e.bullet < |g.bullets| && e.target < |g.drones|
                            && g.bullets[e.bullet].pos == g.drones[e.target].pos)
    ensures e.NodeOverlap? && r.Some? && r.value != g ==>
              e.node < |g.nodes| && g.nodes[e.node] == g.runner && g.phase == Playing
    // the keys, the drone timer and the bullet frame act only in play
    ensures (e.PauseKeyPress? || e.Keys? || e.FirePress?) ==> r.Some?
    ensures (e.Keys? || e.FirePress? || e.DroneTimer? || e.Frame? || e.DroneOverlap?) && g.phase != Playing && r.Some? ==>
              r.value == g
    // Space on a screen acts only on that screen
    ensures e.GameOverSpaceKey? ==> r == Some(if g.phase == GameOver then Restart(g) else g)
    ensures e.VictorySpaceKey? && g.phase != Victory && r.Some? ==> r.value == g
  {
    match e
    case LevelButton(i, cells) =>
      if g.phase == Menu && 1 <= i <= MaxLevel && AllInGrid(cells) then StartLevel(g, i, cells) else None
    case PauseKeyPress => Some(PauseKey(g))
    case Keys(held) => Some(MoveRunner(g, held))
    case NodeOverlap(k) => if k < |g.nodes| then Some(CollectNode(g, k)) else None
    case DroneOverlap(j) =>
      if j < |g.drones| && g.drones[j].pos == g.runner then Some(HitDrone(g)) else None
    case DroneTimer(shuffles) =>
      if ValidTickDraws(|g.drones|, shuffles) then Some(MoveDrones(g, shuffles)) else None
    case FirePress => Some(FireBullet(g))
    case Frame(due) => if |due| == |g.bullets| then Some(StepBullets(g, due)) else None
    case BulletOverlap(bi, di) =>
      if bi < |g.bullets| && di < |g.drones| && g.bullets[bi].pos == g.drones[di].pos
      then Some(BulletHit(g, bi, di)) else None
    case VictorySpaceKey(cells) => if AllInGrid(cells) then VictorySpace(g, cells) else None
    case NextLevelClick(cells) =>
      if g.phase == Victory && g.level < MaxLevel && AllInGrid(cells) then NextLevel(g, cells) else None
    case RestartClick => if g.phase == Victory || g.phase == GameOver then Some(Restart(g)) else None
    case GameOverSpaceKey => Some(GameOverSpace(g))
  }

  /** Events applied in order, stopping at the first that cannot happen. */
  function Run(g: Game, es: seq<Event>): Option<Game>
    decreases |es|
  {
    if |es| == 0 then Some(g)
    else match Apply(g, es[0])
      case None => None
      case Some(h) => Run(h, es[1..])
  }

  // ---- the session invariant ----------------------------------------------

  /** A level in progress or just ended: its entities and counters agree. */
  predicate ArenaOk(g: Game) {
    && g.total == ConfigFor(g.level).dataNodes
    && InGrid(g.runner)
    && AllInGrid(g.nodes) && NodesApart(g.nodes)
    && SafeDrones(g.nodes, g.drones)
    && (forall k :: 0 <= k < |g.drones| ==> g.drones[k].hits < HitsToDestroy)
    && (forall b :: b in g.bullets ==> InGrid(b.pos))
    && g.dronesRemaining == |g.drones|
    && g.collected + |g.nodes| == g.total
    && (g.phase == Playing || g.phase == Paused ==> |g.nodes| > 0)
    && (g.phase == Victory ==> |g.nodes| == 0)
  }

  /**
   What holds between events: a valid level; in the menu nothing is on the
   field, nothing is collected and the drone counter kept from the last
   level is not negative; otherwise the arena is consistent.
   */
  predicate Inv(g: Game) {
    && 1 <= g.level <= MaxLevel
    && (g.phase == Menu ==> g.collected == 0 && g.nodes == [] && g.drones == [] && g.bullets == [] && g.dronesRemaining >= 0)
    && (g.phase != Menu ==> ArenaOk(g))
  }

  lemma InvInitial()
    ensures Inv(Initial)
  {
  }

  /** Drones that were safe among some nodes stay safe among fewer. */
  lemma SafeAmongFewer(nodes: seq<Cell>, fewer: seq<Cell>, drones: seq<Drone>)
    requires SafeDrones(nodes, drones)
    requires forall c :: c in fewer ==> c in nodes
    ensures SafeDrones(fewer, drones)
  {
    forall k | 0 <= k < |drones| ensures drones[k].pos !in fewer && !AdjacentToAny(fewer, drones[k].pos) {
      assert !AdjacentToAny(nodes, drones[k].pos);
    }
  }

  /** Safety only looks at positions. */
  lemma SafeSamePositions(nodes: seq<Cell>, a: seq<Drone>, b: seq<Drone>)
    requires SafeDrones(nodes, a)
    requires |a| == |b| && forall k :: 0 <= k < |a| ==> a[k].pos == b[k].pos
    ensures SafeDrones(nodes, b)
  {
  }

  /** Safety survives the removal of a drone. */
  lemma SafeWithout(nodes: seq<Cell>, drones: seq<Drone>, i: nat)
    requires i < |drones| && SafeDrones(nodes, drones)
    ensures SafeDrones(nodes, RemoveAt(drones, i))
  {
    var r := RemoveAt(drones, i);
    forall a, b | 0 <= a < b < |r| ensures r[a].pos != r[b].pos {
      var a' := if a < i then a else a + 1;
      var b' := if b < i then b else b + 1;
      assert r[a] == drones[a'] && r[b] == drones[b'];
    }
  }

  lemma CollectKeepsInv(g: Game, k: nat)
    requires Inv(g) && k < |g.nodes|
    ensures Inv(CollectNode(g, k))
  {
    var r := CollectNode(g, k);
    if r != g {
      RemoveAtKeeps(g.nodes, k);
      assert r.nodes == RemoveAt(g.nodes, k) by {
        assert |r.nodes| == |g.nodes| - 1;
      }
      SafeAmongFewer(g.nodes, r.nodes, g.drones);
    }
  }

  lemma BulletHitKeepsInv(g: Game, bi: nat, di: nat)
    requires Inv(g) && bi < |g.bullets| && di < |g.drones|
    ensures Inv(BulletHit(g, bi, di))
  {
    var r := BulletHit(g, bi, di);
    var d := g.drones[di];
    RemoveAtKeeps(g.bullets, bi);
    if d.hits + 1 >= HitsToDestroy {
      SafeWithout(g.nodes, g.drones, di);
      RemoveAtKeeps(g.drones, di);
    } else {
      SafeSamePositions(g.nodes, g.drones, r.drones);
    }
  }

  /** The arena stays consistent when only the drones change, as long as they stay safe and below three hits. */
  lemma ArenaWithDrones(g: Game, drones: seq<Drone>)
    requires ArenaOk(g)
    requires |drones| == |g.drones|
    requires SafeDrones(g.nodes, drones)
    requires forall k :: 0 <= k < |drones| ==> drones[k].hits < HitsToDestroy
    ensures ArenaOk(g.(drones := drones))
  {
  }

  /** The drone tick never changes a hit count. */
  lemma TickKeepsHits(g: Game, shuffles: seq<seq<nat>>)
    requires ValidTickDraws(|g.drones|, shuffles)
    requires forall k :: 0 <= k < |g.drones| ==> g.drones[k].hits < HitsToDestroy
    ensures var r := MoveDrones(g, shuffles);
            forall k :: 0 <= k < |r.drones| ==> r.drones[k].hits < HitsToDestroy
  {
    var r := MoveDrones(g, shuffles);
    forall k | 0 <= k < |r.drones| ensures r.drones[k].hits < HitsToDestroy {
      assert StayOrStep(g.drones[k], r.drones[k]);
    }
  }

  /** The drone tick keeps the invariant. */
  lemma MoveDronesKeepsInv(g: Game, shuffles: seq<seq<nat>>)
    requires Inv(g) && ValidTickDraws(|g.drones|, shuffles)
    ensures Inv(MoveDrones(g, shuffles))
  {
    var r := MoveDrones(g, shuffles);
    if g.phase == Playing {
      TickKeepsHits(g, shuffles);
      ArenaWithDrones(g, r.drones);
    }
  }

  /** A freshly built level satisfies the invariant. */
  lemma CreateKeepsInv(g: Game, draws: seq<Cell>)
    requires 1 <= g.level <= MaxLevel && g.phase == Playing && g.collected == 0 && AllInGrid(draws)
    ensures Create(g, draws).Some? ==> Inv(Create(g, draws).value)
  {
  }

  lemma PauseKeepsInv(g: Game)
    requires Inv(g)
    ensures Inv(PauseKey(g))
  {
  }

  lemma MoveRunnerKeepsInv(g: Game, held: set<Dir>)
    requires Inv(g)
    ensures Inv(MoveRunner(g, held))
  {
  }

  lemma HitDroneKeepsInv(g: Game)
    requires Inv(g)
    ensures Inv(HitDrone(g))
  {
  }

  lemma FireKeepsInv(g: Game)
    requires Inv(g)
    ensures Inv(FireBullet(g))
  {
  }

  lemma StepBulletsKeepsInv(g: Game, due: seq<bool>)
    requires Inv(g) && |due| == |g.bullets|
    ensures Inv(StepBullets(g, due))
  {
  }

  lemma RestartKeepsInv(g: Game)
    requires Inv(g)
    ensures Inv(Restart(g)) && Inv(GameOverSpace(g))
  {
  }

  lemma VictorySpaceKeepsInv(g: Game, cells: seq<Cell>)
    requires Inv(g) && AllInGrid(cells)
    ensures VictorySpace(g, cells).Some? ==> Inv(VictorySpace(g, cells).value)
  {
    if g.phase == Victory && g.level < MaxLevel {
      CreateKeepsInv(ProceedToNextLevel(g), cells);
    }
  }

  /** An event of the screens and buttons: a level button, Space, a click, or P. */
  predicate ScreenEvent(e: Event) {
    e.LevelButton? || e.PauseKeyPress? || e.VictorySpaceKey? || e.NextLevelClick?
    || e.RestartClick? || e.GameOverSpaceKey?
  }

  /** The screen and button events keep the invariant. */
  lemma ScreenEventKeepsInv(g: Game, e: Event)
    requires Inv(g) && ScreenEvent(e)
    ensures Apply(g, e).Some? ==> Inv(Apply(g, e).value)
  {
    match e
    case LevelButton(i, cells) =>
      if g.phase == Menu && 1 <= i <= MaxLevel && AllInGrid(cells) {
        CreateKeepsInv(SelectLevel(g, i), cells);
      }
    case PauseKeyPress => PauseKeepsInv(g);
    case VictorySpaceKey(cells) =>
      if AllInGrid(cells) { VictorySpaceKeepsInv(g, cells); }
    case NextLevelClick(cells) =>
      if g.phase == Victory && g.level < MaxLevel && AllInGrid(cells) {
        CreateKeepsInv(ProceedToNextLevel(g), cells);
      }
    case RestartClick => RestartKeepsInv(g);
    case GameOverSpaceKey => RestartKeepsInv(g);
  }

  /** The events of play (keys, contacts, timers, firing) keep the invariant. */
  lemma PlayEventKeepsInv(g: Game, e: Event)
    requires Inv(g) && !ScreenEvent(e)
    ensures Apply(g, e).Some? ==> Inv(Apply(g, e).value)
  {
    match e
    case Keys(held) => MoveRunnerKeepsInv(g, held);
    case NodeOverlap(k) =>
      if k < |g.nodes| { CollectKeepsInv(g, k); }
    case DroneOverlap(j) => HitDroneKeepsInv(g);
    case DroneTimer(shuffles) =>
      if ValidTickDraws(|g.drones|, shuffles) { MoveDronesKeepsInv(g, shuffles); }
    case FirePress => FireKeepsInv(g);
    case Frame(due) =>
      if |due| == |g.bullets| { StepBulletsKeepsInv(g, due); }
    case BulletOverlap(bi, di) =>
      if bi < |g.bullets| && di < |g.drones| { BulletHitKeepsInv(g, bi, di); }
  }

  /** Every event keeps the invariant. */
  lemma ApplyKeepsInv(g: Game, e: Event)
    requires Inv(g)
    ensures Apply(g, e).Some? ==> Inv(Apply(g, e).value)
  {
    if ScreenEvent(e) { ScreenEventKeepsInv(g, e); } else { PlayEventKeepsInv(g, e); }
  }

  /** From the start, every run of events keeps the invariant. */
  lemma {:induction false} RunKeepsInv(g: Game, es: seq<Event>)
    requires Inv(g)
    ensures Run(g, es).Some? ==> Inv(Run(g, es).value)
    decreases |es|
  {
    if |es| > 0 {
      ApplyKeepsInv(g, es[0]);
      if Apply(g, es[0]).Some? {
        RunKeepsInv(Apply(g, es[0]).value, es[1..]);
      }
    }
  }

  /**
   In every reachable state the drone counter is never negative; outside the
   menu it equals the drones on the field, and the nodes collected and
   remaining add up to the level's total; in the menu the field is empty and
   nothing is collected. No more nodes are collected than the level has.
   */
  lemma ReachableCounters(es: seq<Event>)
    ensures Run(Initial, es).Some? ==>
              var g := Run(Initial, es).value;
              && g.dronesRemaining >= 0
              && (g.phase != Menu ==> g.dronesRemaining == |g.drones|)
              && (g.phase != Menu ==> g.collected + |g.nodes| == g.total)
              && (g.phase == Menu ==> g.collected == 0 && g.nodes == [] && g.drones == [])
              && g.collected <= g.total
  {
    InvInitial();
    RunKeepsInv(Initial, es);
  }
}

=== FILE: shuffle.dfy ===
/**
 The array shuffle used for a drone's fallback directions: a Fisher-Yates
 pass that walks `i` from the last index down to 1 and swaps element `i`
 with element `j`, `0 <= j <= i`. The random choices of `j` are supplied.
 */
module Shuffle {
  import opened Sequences

  function Swap<T>(a: seq<T>, i: nat, j: nat): (r: seq<T>)
    requires i < |a| && j < |a|
    ensures |r| == |a|
    ensures r[i] == a[j] && r[j] == a[i]
    ensures forall k :: 0 <= k < |a| && k != i && k != j ==> r[k] == a[k]
    ensures multiset(r) == multiset(a)
    ensures Distinct(a) ==> Distinct(r)
  {
    a[i := a[j]][j := a[i]]
  }

  /**
   The random draws of one pass over `n` elements: the k-th draw is the
   partner index for position `n - 1 - k`, so it lies in [0, n - 1 - k].
   */
  predicate ValidDraws(n: nat, draws: seq<nat>) {
    |draws| == (if n == 0 then 0 else n - 1) &&
    forall k :: 0 <= k < |draws| ==> draws[k] <= n - 1 - k
  }

  /** The pass from position `i` down to 1. */
  function ShuffleDown<T>(a: seq<T>, i: nat, draws: seq<nat>): (r: seq<T>)
    requires i < |a|
    requires |draws| == i
    requires forall k :: 0 <= k < i ==> draws[k] <= i - k
    ensures |r| == |a|
    ensures multiset(r) == multiset(a)
    ensures Distinct(a) ==> Distinct(r)
    ensures forall k :: i < k < |a| ==> r[k] == a[k]
    decreases i
  {
    if i == 0 then a else ShuffleDown(Swap(a, i, draws[0]), i - 1, draws[1..])
  }

  /** Fisher-Yates: the result is a rearrangement of the input. */
  function FisherYates<T>(a: seq<T>, draws: seq<nat>): (r: seq<T>)
    requires ValidDraws(|a|, draws)
    ensures |r| == |a|
    ensures multiset(r) == multiset(a)
    ensures Distinct(a) ==> Distinct(r)
  {
    if |a| == 0 then a else ShuffleDown(a, |a| - 1, draws)
  }
}

=== FILE: spawn.dfy ===
/**
 Level set-up: placing the data nodes and the drones. Each placement redraws
 a random cell until one passes its exclusion rule; the random cells are
 supplied as a stream `draws`, consumed from the front.
 */
module Spawn {
  import opened Wrappers
  import opened Grid
  import opened Sequences

  /** The cells placed, and the draws left over for whatever is placed next. */
  datatype Placement = Placement(cells: seq<Cell>, rest: seq<Cell>)

  /** A data node may go on `c`: not the runner's spawn cell and not on an earlier node. */
  predicate NodeSpotFree(c: Cell, placed: seq<Cell>) {
    c != Centre && c !in placed
  }

  /** Nodes on pairwise distinct cells, none on the runner's spawn cell. */
  predicate NodesApart(cells: seq<Cell>) {
    Distinct(cells) && Centre !in cells
  }

  predicate AllInGrid(cells: seq<Cell>) {
    forall c :: c in cells ==> InGrid(c)
  }

  /** `rest` is what is left of `draws` after some prefix was consumed. */
  predicate SuffixOf(rest: seq<Cell>, draws: seq<Cell>) {
    |rest| <= |draws| && rest == draws[|draws| - |rest|..]
  }

  lemma AppendDistinct<T>(s: seq<T>, x: T)
    requires Distinct(s) && x !in s
    ensures Distinct(s + [x])
  {
  }

  /** Places `count` more nodes after `placed`; none when the draws run out first. */
  function PlaceNodes(count: nat, placed: seq<Cell>, draws: seq<Cell>): (r: Option<Placement>)
    ensures |draws| < count ==> r.None?
    ensures r.Some? ==> |r.value.cells| == |placed| + count && placed <= r.value.cells
    ensures r.Some? ==> SuffixOf(r.value.rest, draws) && |r.value.rest| + count <= |draws|
    ensures r.Some? ==> forall c :: c in r.value.cells ==> c in placed || c in draws
    ensures r.Some? && NodesApart(placed) ==> NodesApart(r.value.cells)
    ensures count <= |NodeChoices(placed, draws)| ==> r.Some?
    decreases |draws|
  {
    NodeChoicesInDraws(placed, draws);
    if count == 0 then Some(Placement(placed, draws))
    else if |draws| == 0 then None
    else if NodeSpotFree(draws[0], placed) then
      assert NodesApart(placed) ==> NodesApart(placed + [draws[0]]) by {
        if NodesApart(placed) { AppendDistinct(placed, draws[0]); }
      }
      NodeChoicesAfterTake(placed, draws);
      SubsetCard(NodeChoices(placed, draws) - {draws[0]}, NodeChoices(placed + [draws[0]], draws[1..]));
      PlaceNodes(count - 1, placed + [draws[0]], draws[1..])
    else
      NodeChoicesAfterSkip(placed, draws);
      SubsetCard(NodeChoices(placed, draws), NodeChoices(placed, draws[1..]));
      PlaceNodes(count, placed, draws[1..])
  }

  /** Dropping the first draw keeps the draws apart and fresh with respect to `placed` extended by it. */
  lemma TailStillApart(placed: seq<Cell>, draws: seq<Cell>)
    requires |draws| > 0 && NodesApart(draws)
    requires forall c :: c in draws ==> c !in placed
    ensures NodesApart(draws[1..])
    ensures forall c :: c in draws[1..] ==> c !in placed + [draws[0]]
  {
    var tail := draws[1..];
    forall i, j | 0 <= i < j < |tail| ensures tail[i] != tail[j] {
      assert tail[i] == draws[i + 1] && tail[j] == draws[j + 1];
    }
    forall c | c in tail ensures c !in placed + [draws[0]] && c != Centre {
      var j :| 0 <= j < |tail| && tail[j] == c;
      assert draws[j + 1] == c;
    }
  }

  /** Taking the first draw and then `count - 1` more is taking `count`. */
  lemma TakeFirst<T>(placed: seq<T>, draws: seq<T>, count: nat)
    requires 0 < count <= |draws|
    ensures placed + [draws[0]] + draws[1..][..count - 1] == placed + draws[..count]
    ensures draws[1..][count - 1..] == draws[count..]
  {
    assert draws[..count] == [draws[0]] + draws[1..][..count - 1];
  }

  /** The distinct cells among `draws` that a node could take after `placed`. */
  function NodeChoices(placed: seq<Cell>, draws: seq<Cell>): set<Cell> {
    set c | c in draws && NodeSpotFree(c, placed)
  }

  lemma SubsetCard<T>(a: set<T>, b: set<T>)
    requires a <= b
    ensures |a| <= |b|
  {
    assert b == a + (b - a);
  }

  /** Cells taken from `placed`, the first draw or the later draws are taken from `placed` or the draws. */
  lemma FromTakenDraw(cells: seq<Cell>, placed: seq<Cell>, a: seq<Cell>)
    requires |a| > 0
    requires forall c :: c in cells ==> c in placed + [a[0]] || c in a[1..]
    ensures forall c :: c in cells ==> c in placed || c in a
  {
    forall c | c in cells ensures c in placed || c in a {
      if c !in a[1..] { assert c in placed + [a[0]]; }
    }
  }

  /** Every choice is one of the draws, so there is none without draws. */
  lemma NodeChoicesInDraws(placed: seq<Cell>, a: seq<Cell>)
    ensures |NodeChoices(placed, a)| > 0 ==> |a| > 0
  {
    if |NodeChoices(placed, a)| > 0 {
      var x :| x in NodeChoices(placed, a);
      assert x in a;
    }
  }

  /** Taking the first draw leaves every other choice open. */
  lemma NodeChoicesAfterTake(placed: seq<Cell>, a: seq<Cell>)
    requires |a| > 0
    ensures NodeChoices(placed, a) - {a[0]} <= NodeChoices(placed + [a[0]], a[1..])
  {
    forall c | c in NodeChoices(placed, a) - {a[0]} ensures c in NodeChoices(placed + [a[0]], a[1..]) {
      assert c in a[1..];
    }
  }

  /** Skipping a refused first draw loses no choice. */
  lemma NodeChoicesAfterSkip(placed: seq<Cell>, a: seq<Cell>)
    requires |a| > 0 && !NodeSpotFree(a[0], placed)
    ensures NodeChoices(placed, a) <= NodeChoices(placed, a[1..])
  {
    forall c | c in NodeChoices(placed, a) ensures c in a[1..] {
      assert c != a[0];
    }
  }

  /**
   The redraw loop always finishes: when `a` holds at least `count`
   distinct acceptable cells, the nodes are placed from `a` alone, whatever
   draws `b` follow it, and `b` is left untouched for the drones.
   */
  lemma PlaceNodesSucceeds(count: nat, placed: seq<Cell>, a: seq<Cell>, b: seq<Cell>)
    requires count <= |NodeChoices(placed, a)|
    ensures var r := PlaceNodes(count, placed, a + b);
            && r.Some?
            && |r.value.rest| >= |b|
            && forall c :: c in r.value.cells ==> c in placed || c in a
  {
    PlaceNodesAppend(count, placed, a, b);
  }

  /** Draws the loop never reaches change nothing but what is left over. */
  lemma {:induction false} PlaceNodesAppend(count: nat, placed: seq<Cell>, a: seq<Cell>, b: seq<Cell>)
    requires PlaceNodes(count, placed, a).Some?
    ensures var p := PlaceNodes(count, placed, a).value;
            PlaceNodes(count, placed, a + b) == Some(Placement(p.cells, p.rest + b))
    decreases |a|
  {
    if count == 0 {
      assert PlaceNodes(0, placed, a) == Some(Placement(placed, a));
      assert PlaceNodes(0, placed, a + b) == Some(Placement(placed, a + b));
    } else {
      assert |a| >= count;
      var d := a[0];
      var t := a[1..];
      assert (a + b)[0] == d && (a + b)[1..] == t + b;
      if NodeSpotFree(d, placed) {
        PlaceNodesAppend(count - 1, placed + [d], t, b);
      } else {
        PlaceNodesAppend(count, placed, t, b);
      }
    }
  }

  /**
   When every draw is acceptable (distinct, off the spawn cell, not yet
   used), the nodes are exactly the first `count` draws: nothing is skipped.
   */
  lemma {:induction false} PlaceNodesFirstFit(count: nat, placed: seq<Cell>, draws: seq<Cell>)
    requires count <= |draws|
    requires NodesApart(draws)
    requires forall c :: c in draws ==> c !in placed
    ensures PlaceNodes(count, placed, draws) == Some(Placement(placed + draws[..count], draws[count..]))
    decreases count
  {
    if count > 0 {
      assert draws[0] in draws;
      assert NodeSpotFree(draws[0], placed);
      var tail := draws[1..];
      TailStillApart(placed, draws);
      PlaceNodesFirstFit(count - 1, placed + [draws[0]], tail);
      TakeFirst(placed, draws, count);
    } else {
      assert placed + draws[..0] == placed && draws[0..] == draws;
    }
  }

  /**
   A drone may go on `c`: not the runner's spawn cell, not on or next to a
   node, not on an earlier drone, and outside the cross formed by the
   columns and rows within four cells of the spawn cell.
   */
  predicate DroneSpotFree(c: Cell, nodes: seq<Cell>, placed: seq<Cell>) {
    && c != Centre
    && c !in nodes
    && c !in placed
    && !AdjacentToAny(nodes, c)
    && !(Abs(c.x - Centre.x) < 5 || Abs(c.y - Centre.y) < 5)
  }

  /** What every placed drone satisfies with respect to the nodes and the spawn cell. */
  predicate DroneClear(nodes: seq<Cell>, c: Cell) {
    && c !in nodes
    && !AdjacentToAny(nodes, c)
    && Abs(c.x - Centre.x) >= 5 && Abs(c.y - Centre.y) >= 5
  }

  predicate DronesApart(nodes: seq<Cell>, cells: seq<Cell>) {
    Distinct(cells) && forall c :: c in cells ==> DroneClear(nodes, c)
  }

  /** Places `count` more drones after `placed`; none when the draws run out first. */
  function PlaceDrones(count: nat, nodes: seq<Cell>, placed: seq<Cell>, draws: seq<Cell>): (r: Option<Placement>)
    ensures |draws| < count ==> r.None?
    ensures r.Some? ==> |r.value.cells| == |placed| + count && placed <= r.value.cells
    ensures r.Some? ==> SuffixOf(r.value.rest, draws) && |r.value.rest| + count <= |draws|
    ensures r.Some? ==> forall c :: c in r.value.cells ==> c in placed || c in draws
    ensures r.Some? && DronesApart(nodes, placed) ==> DronesApart(nodes, r.value.cells)
    ensures count <= |DroneChoices(nodes, placed, draws)| ==> r.Some?
    decreases |draws|
  {
    DroneChoicesInDraws(nodes, placed, draws);
    if count == 0 then Some(Placement(placed, draws))
    else if |draws| == 0 then None
    else if DroneSpotFree(draws[0], nodes, placed) then
      assert DronesApart(nodes, placed) ==> DronesApart(nodes, placed + [draws[0]]) by {
        if DronesApart(nodes, placed) { AppendDistinct(placed, draws[0]); }
      }
      DroneChoicesAfterTake(nodes, placed, draws);
      SubsetCard(DroneChoices(nodes, placed, draws) - {draws[0]}, DroneChoices(nodes, placed + [draws[0]], draws[1..]));
      PlaceDrones(count - 1, nodes, placed + [draws[0]], draws[1..])
    else
      DroneChoicesAfterSkip(nodes, placed, draws);
      SubsetCard(DroneChoices(nodes, placed, draws), DroneChoices(nodes, placed, draws[1..]));
      PlaceDrones(count, nodes, placed, draws[1..])
  }

  /** The distinct cells among `draws` that a drone could take after `placed`, given the nodes. */
  function DroneChoices(nodes: seq<Cell>, placed: seq<Cell>, draws: seq<Cell>): set<Cell> {
    set c | c in draws && DroneSpotFree(c, nodes, placed)
  }

  /**
   The drone loop always finishes: when `a` holds at least `count` distinct
   acceptable cells, the drones are placed from `a` alone.
   */
  lemma PlaceDronesSucceeds(count: nat, nodes: seq<Cell>, placed: seq<Cell>, a: seq<Cell>, b: seq<Cell>)
    requires count <= |DroneChoices(nodes, placed, a)|
    ensures var r := PlaceDrones(count, nodes, placed, a + b);
            && r.Some?
            && |r.value.rest| >= |b|
            && forall c :: c in r.value.cells ==> c in placed || c in a
  {
    PlaceDronesAppend(count, nodes, placed, a, b);
  }

  /** Draws the loop never reaches change nothing but what is left over. */
  lemma {:induction false} PlaceDronesAppend(count: nat, nodes: seq<Cell>, placed: seq<Cell>, a: seq<Cell>, b: seq<Cell>)
    requires PlaceDrones(count, nodes, placed, a).Some?
    ensures var p := PlaceDrones(count, nodes, placed, a).value;
            PlaceDrones(count, nodes, placed, a + b) == Some(Placement(p.cells, p.rest + b))
    decreases |a|
  {
    if count == 0 {
      assert PlaceDrones(0, nodes, placed, a) == Some(Placement(placed, a));
      assert PlaceDrones(0, nodes, placed, a + b) == Some(Placement(placed, a + b));
    } else {
      assert |a| >= count;
      var d := a[0];
      var t := a[1..];
      assert (a + b)[0] == d && (a + b)[1..] == t + b;
      if DroneSpotFree(d, nodes, placed) {
        PlaceDronesAppend(count - 1, nodes, placed + [d], t, b);
      } else {
        PlaceDronesAppend(count, nodes, placed, t, b);
      }
    }
  }

  /** Every choice is one of the draws, so there is none without draws. */
  lemma DroneChoicesInDraws(nodes: seq<Cell>, placed: seq<Cell>, a: seq<Cell>)
    ensures |DroneChoices(nodes, placed, a)| > 0 ==> |a| > 0
  {
    if |DroneChoices(nodes, placed, a)| > 0 {
      var x :| x in DroneChoices(nodes, placed, a);
      assert x in a;
    }
  }

  /** Taking the first draw leaves every other choice open. */
  lemma DroneChoicesAfterTake(nodes: seq<Cell>, placed: seq<Cell>, a: seq<Cell>)
    requires |a| > 0
    ensures DroneChoices(nodes, placed, a) - {a[0]} <= DroneChoices(nodes, placed + [a[0]], a[1..])
  {
    forall c | c in DroneChoices(nodes, placed, a) - {a[0]}
      ensures c in DroneChoices(nodes, placed + [a[0]], a[1..])
    {
      assert c in a[1..];
      assert c !in placed + [a[0]];
    }
  }

  /** Skipping a refused first draw loses no choice. */
  lemma DroneChoicesAfterSkip(nodes: seq<Cell>, placed: seq<Cell>, a: seq<Cell>)
    requires |a| > 0 && !DroneSpotFree(a[0], nodes, placed)
    ensures DroneChoices(nodes, placed, a) <= DroneChoices(nodes, placed, a[1..])
  {
    forall c | c in DroneChoices(nodes, placed, a) ensures c in a[1..] {
      assert c != a[0];
    }
  }

  /**
   A cell acceptable for a drone next to a larger set of nodes is acceptable
   next to fewer, and stays a choice when the draws only grow.
   */
  lemma DroneChoicesWiden(nodes: seq<Cell>, bigger: seq<Cell>, b: seq<Cell>, rest: seq<Cell>)
    requires forall c :: c in nodes ==> c in bigger
    requires forall c :: c in b ==> c in rest
    ensures DroneChoices(bigger, [], b) <= DroneChoices(nodes, [], rest)
  {
    forall c | c in DroneChoices(bigger, [], b) ensures c in DroneChoices(nodes, [], rest) {
      forall n | n in nodes && Abs(n.x - c.x) <= 1 && Abs(n.y - c.y) <= 1 ensures n == c {
        assert n in bigger;
      }
    }
  }

  /**
   The cross test is stricter than keeping a Chebyshev distance of five from
   the spawn cell: every admitted drone cell is that far away, yet cells far
   away on the spawn cell's row or column are refused.
   */
  lemma CrossIsStricterThanBall(nodes: seq<Cell>, placed: seq<Cell>)
    ensures forall c :: DroneSpotFree(c, nodes, placed) ==> Chebyshev(c, Centre) >= 5
    ensures Chebyshev(Cell(25, 0), Centre) == 25 && !DroneSpotFree(Cell(25, 0), nodes, placed)
  {
  }
}

=== FILE: state.dfy ===
/**
 The session record: the scene's globals (state, level, counters, last
 facing) together with the entities of the current level.
 */
module State {
  import opened Grid

  /** The game state enum; the game-over state is one value (see `SourceLabels`). */
  datatype Phase = Menu | Playing | Paused | Victory | GameOver

  /** A drone: its cell, the cell it left on its last move, and the bullets it has taken. */
  datatype Drone = Drone(pos: Cell, prev: Cell, hits: nat)

  /** A bullet: its cell and the direction it travels, one cell per bullet step. */
  datatype Bullet = Bullet(pos: Cell, dir: Dir)

  datatype Game = Game(
    phase: Phase,
    level: int,
    collected: nat,         // data nodes collected in this level
    total: nat,             // data nodes the level started with
    runner: Cell,
    lastDir: Dir,           // facing, used as the firing direction
    nodes: seq<Cell>,       // data nodes not yet collected
    drones: seq<Drone>,
    bullets: seq<Bullet>,
    dronesRemaining: int
  )

  /** The state before anything has been chosen: the level menu, level 1, facing up. */
  const Initial: Game := Game(Menu, 1, 0, 10, Centre, Up, [], [], [], 0)
}

=== FILE: wrappers.dfy ===
/** Optional values, used wherever an operation of the game may have no result. */
module Wrappers {

  datatype Option<+T> = None | Some(value: T)
}
